=== FILE: README.md ===
# RF chain analyzer and Touchstone extractor — a Dafny model

This project models the two computational cores of a small browser tool set
for RF engineers:

- **The RF chain analyzer** (`javascript/archi_verif.js`). This is an ordered
  chain of stages (amplifier, filter, attenuator, switch, mixer). Each stage
  has a gain, a noise figure (NF), an insertion or conversion loss and an
  output 1-dB compression point (OP1dB). The model covers:
  - the editing operations on the chain: add, remove-last, the stage-count
    input, remove-at and the drag-and-drop move;
  - the write-back of a stage card's fields;
  - the per-type resolver that turns raw fields into an effective
    (gain, NF, OP1dB) triple;
  - the linear-domain cascade: the total gain, Friis' noise factor
    (`calcNF`) and the reciprocal-sum output compression point (`calcP1db`)
    with its suffix-gain array;
  - the four totals that `computeAll` produces.
- **The Touchstone (S2P) column extractor** (`javascript/s2p_converter.js`).
  It reads the text of a Touchstone v1 two-port file and turns it into a
  table of (frequency in Hz, value) rows for one chosen S-parameter. The
  model covers:
  - line splitting;
  - comment detection;
  - the `#` header unit;
  - the first data line;
  - the column mapping by column count;
  - unit scaling;
  - row extraction with its error outcomes;
  - the Convert button's defaults.

Modules, one file each:

| module | file | contents |
|---|---|---|
| `Wrappers` | `wrappers.dfy` | `Option`, `Result` |
| `JsNumbers` | `jsnumbers.dfy` | JavaScript numbers (finite, ±∞, NaN), `x \|\| d` on numbers, subtraction |
| `Units` | `units.dfy` | `dbToLin`, `linToDb` |
| `Text` | `text.dfy` | `trim`, `split(/\s+/)`, `split`/`join` on one character, ASCII case mapping, `startsWith`, `includes` |
| `Stages` | `stages.dfy` | the stage record, default and example stages, reset, write-back |
| `ChainEditing` | `chain_editing.dfy` | add, remove-last, resize, remove-at, drop move |
| `Cascade` | `cascade.dfy` | gain product, Friis, `calcNF`, `calcP1db` |
| `Resolver` | `resolver.dfy` | the per-type resolver and the linear record of a stage |
| `Analyzer` | `analyzer.dfy` | `computeAll` |
| `Touchstone` | `touchstone.dfy` | the S2P extractor |

Modelling choices:

- **Real numbers.** Numbers are exact reals. A JavaScript number that can be
  infinite or NaN is a `JsNum`.
- **Abstract `pow10`, `log10` and `Number()`.** `Math.pow(10, ·)`,
  `Math.log10` and `Number(token)` stay abstract. Each is passed in as a
  function parameter. `pow10` has the type `Pow10`: it is assumed positive
  everywhere. Only the branches around these functions are modelled.
- **The stored NF.** The record type lets a stored noise figure be
  absent, NaN or a number, because `writeBack` stores `parseFloat` of a
  non-empty input without a fall-back. The other numeric fields pass
  through `|| 0` or `|| 1000` and are never NaN.
- **The `||` fall-back.** On a number that is never NaN, `x || d` is "`d` when
  `x` is 0, otherwise `x`" (`JsNumbers.OrElse`).
- **Inputs from outside the model.** The drop position is an input in
  [0, N]: the gap between cards that the cursor position picks. The
  dragged source index is any integer, since the drop handler accepts any
  text that `parseInt` reads as a number. The user's answer to the reset
  confirmation is a boolean input.
- **Over-approximated cases.** `StageKind.Unknown`, `NfUnset`, `NfNaN` and
  `FieldText.Unparsable` cannot arise from the program's own edits. The
  type always comes from a five-option select. Every numeric field is an
  `<input type="number">` (`javascript/archi_verif.js:142-155`), whose value is either empty or
  a valid floating-point numeral; a rendered `value="NaN"` or
  `value="undefined"` is cleared to empty. So `parseFloat` of a non-empty
  value is a number, and every write of `nf_dB` stores a number. The
  model keeps all four cases so that the fall-backs for them (`s.type`
  outside the five, `nf_dB` undefined or NaN, `parseFloat(...)` NaN) are
  stated too.

Notes on the program's behaviour:

- **Mixer NF.** A mixer's noise figure is `nf_dB || |gain|`, so an explicit
  0 dB NF (or NaN) falls back to the conversion loss, while an amplifier's
  is `nf_dB` whenever it is defined and keeps an explicit 0.
  `Resolver.Resolve` states both cases.
- **No unbounded P1dB from `computeAll`.** `calcP1db` has a +∞ branch for a
  chain where no stage limits; `computeAll` can never reach it. Every stage
  gets a positive finite `p1_lin`, and an unset or huge OP1dB gives the
  sentinel 10^300, which still limits. `Cascade.CalcP1db` states the +∞
  branch, and from `computeAll` the output and input P1dB of a non-empty
  chain are always finite (`Analyzer.ComputeAll`,
  `Analyzer.NoUnlimitedChain`).
- **Dead column check.** The column-range error of `buildOutputText` can
  never be raised. The first data line has at least two columns, and every
  column the mapping for n ≥ 2 columns names is below n: column 7 is used
  only from nine columns on, column 4 only for five or eight
  (`Touchstone.MappingInRange`).
- **Out-of-range drag source.** The drop handler rejects only a source that
  is not a number. A number past the last card makes `splice` return
  nothing, and that `undefined` is inserted into the chain (see Findings).
  A negative number removes a card counted from the end and reinserts it
  at the gap adjusted by the raw `srcIdx < destIdx` test
  (`ChainEditing.NegativeSourceCountsFromEnd`). The model's
  `ChainEditing.DropMove` ignores both kinds of drop;
  `ChainEditing.DropMoveAsWritten` keeps the program's behaviour.
- **Unit notice never seen.** The Convert handler writes the unit notice
  into the status line and then, in the same click, always writes the
  conversion's own status ("Conversion OK" or the error), which replaces
  it (see Findings). `Touchstone.Convert` states when the notice is set,
  `Touchstone.ShownStatusAsWritten` what the line shows, and
  `Touchstone.ShownStatus` the status line that keeps the notice.

## Model

| member | source | states |
|---|---|---|
| Units.DbToLin | javascript/archi_verif.js:29 | the result is always positive. It is the sentinel 1e300 for a non-finite input or one above 500 dB, and 10^(db/10) otherwise |
| Units.LinToDb | javascript/archi_verif.js:30 | −∞ exactly when the ratio is ≤ 0; never +∞ or NaN; 10·log10 of a positive ratio |
| Units.DbToLinToDbFinite | javascript/archi_verif.js:29-30 | converting any value, even ±∞ or NaN, to linear and back gives a finite dB value |
| JsNumbers.Sub | javascript/archi_verif.js:326 | subtraction of two finite numbers is finite and exact. NaN propagates. The difference of two equal infinities is NaN |
| Stages.Reset | javascript/archi_verif.js:359 | without confirmation the chain is unchanged. With confirmation it is the five-stage example chain: filters at 0, 2 and 4, an amplifier at 1, a mixer at 3 |
| Stages.DefaultStage | javascript/archi_verif.js:86 | the amplifier appended at position i is named "Filtre " followed by the numeral of i + 1, with gain 15 dB, NF 3 dB, loss 1 dB and OP1dB 23 dBm; its OP1dB is non-zero and its NF a number, so write-back leaves it as it is |
| Stages.DefaultNamesDistinct | javascript/archi_verif.js:86 | stages appended at different positions get different names |
| Text.NatToString | javascript/archi_verif.js:86 | the numeral `${i+1}` prints: decimal digits only, with a leading 0 exactly for the number 0 |
| Text.NatToStringValue | javascript/archi_verif.js:86 | reading the printed numeral back as a decimal number gives the number |
| Text.NatToStringInjective | javascript/archi_verif.js:86 | different numbers print as different numerals |
| Stages.InitialChain | javascript/archi_verif.js:88-96 | five stages, each with a non-zero OP1dB and a numeric NF |
| Stages.ParseOr | javascript/archi_verif.js:218-222 | `parseFloat(text) \|\| d` is the parsed number when it is non-zero, and `d` when it is 0 or the text gave no number |
| Stages.WriteBackNf | javascript/archi_verif.js:219-220 | parsed text gives that NF, unparsable text gives NaN. A blank input keeps a truthy old NF and otherwise stores 0 |
| Stages.WriteBack | javascript/archi_verif.js:212-224 | name and type are copied. Gain and loss are the parsed values, 0 when unparsable or blank. OP1dB is the typed value when it is a non-zero number, else 1000, so never 0. The NF follows `Stages.WriteBackNf`: parsed value, NaN when unparsable, and for a blank input the old NF when truthy, else 0 |
| Stages.WriteBackIdempotent | javascript/archi_verif.js:212-224 | writing back the same card twice has the effect of writing it once |
| Stages.Render | javascript/archi_verif.js:142-155 | the card's inputs show the record's name, type, gain, loss and OP1dB; the NF input is empty exactly when the stored NF is not a number, and otherwise shows it |
| Stages.RenderWriteBack | javascript/archi_verif.js:212-224 | writing back a record's own rendered card leaves it unchanged exactly when its OP1dB is non-zero and its NF is a number |
| ChainEditing.Add | javascript/archi_verif.js:47-50 | a no-op at 100 stages or more. Otherwise `defaultStage(len)` is appended and the earlier stages are unchanged |
| ChainEditing.RemoveLast | javascript/archi_verif.js:56-58 | a no-op on an empty chain. Otherwise exactly the last stage is dropped |
| ChainEditing.ClampCount | javascript/archi_verif.js:65-68 | the target count is in [0, 100]. NaN and negative values give 0, values above 100 give 100, and values in range are kept |
| ChainEditing.Resize | javascript/archi_verif.js:64-73 | the length is the clamped target. The common prefix is unchanged. The stage appended at position i is `defaultStage(i)` |
| ChainEditing.ResizeIdempotent | javascript/archi_verif.js:64-73 | entering the same count twice has the effect of entering it once |
| ChainEditing.AddRemoveAreResizes | javascript/archi_verif.js:47-73 | the add and remove buttons act like entering the count one above or one below the length |
| ChainEditing.RemoveLastUndoesAdd | javascript/archi_verif.js:47-58 | below the limit, remove-last undoes add |
| ChainEditing.SpliceStart | javascript/archi_verif.js:207 | the start index `splice` uses is within the list, and equals the argument when that is already within it |
| ChainEditing.RemoveAt | javascript/archi_verif.js:204-207 | for an index inside the list, exactly that stage is dropped and later stages shift down one place (multiset minus that stage). An index past the end is a no-op. Negative indices count from the end, as `splice` does |
| ChainEditing.Insert | javascript/archi_verif.js:423 | the stage sits at the given position, the stages before it are unchanged and the ones after it shift up one place in order; the multiset grows by exactly that stage |
| ChainEditing.DropTarget | javascript/archi_verif.js:420-422 | never negative. dest − 1 when the raw source number is below a positive dest (a negative source included), dest when 0 ≤ dest ≤ src, 0 when dest is 0 |
| ChainEditing.DropMove | javascript/archi_verif.js:405-423 | the length and the multiset of stages are preserved for every source number. A source that is not a card index leaves the chain unchanged; any other source is the move of that card (`ChainEditing.Move`) |
| ChainEditing.Move | javascript/archi_verif.js:419-423 | the length and the multiset of stages are preserved. The moved stage ends at the adjusted index (dest − 1 when src < dest, never below 0). Dropping at dest ∈ {src, src+1} is the identity |
| ChainEditing.DropMoveAsWritten | javascript/archi_verif.js:405-423 | agrees with `ChainEditing.Move` for a source inside the chain. A source past the end puts an `undefined` entry at the drop gap and grows the chain by one. The chain with the `undefined` entry is exactly the old one with `undefined` inserted at the gap. A negative source removes the card counted from the end and inserts it at `DropTarget(src, dest)`, which leaves no `undefined`. On an empty chain a negative source gives just the `undefined` entry |
| ChainEditing.NegativeSourceCountsFromEnd | javascript/archi_verif.js:419-423 | on three cards, source −1 dropped at gap 2 moves the last card one place forward |
| ChainEditing.DropPastEndInsertsUndefined | javascript/archi_verif.js:419-423 | dropping source 5 on a five-stage chain at the first gap gives six entries, the first `undefined` |
| ChainEditing.MoveExplicit | javascript/archi_verif.js:419-423 | every position of the result holds the stage from the matching position of the input: the move is a permutation of positions |
| ChainEditing.MoveUndo | javascript/archi_verif.js:419-423 | dragging the moved stage back to the gap before its old place restores the chain |
| ChainEditing.EditsKeepCapacity | javascript/archi_verif.js:47-77 | no editing operation takes a chain of at most 100 stages above 100 |
| Resolver.Resolve | javascript/archi_verif.js:302-313 | per type. Filter, atten and switch: gain −(IL or 0), NF (IL or 0). Mixer: gain −IL, NF `nf_dB` unless it is 0, NaN or missing, then the absolute value of IL. Ampli and unknown types: gain `gain_dB` (0 when falsy), NF `nf_dB` whenever it is defined, including 0 and NaN, else the absolute value of the gain. OP1dB is 1000 when it is 0 and never 0 |
| Resolver.ResolveIgnoresUnusedFields | javascript/archi_verif.js:302-311 | each type reads only its own fields, so two stages that agree on those fields resolve alike |
| Resolver.P1Lin | javascript/archi_verif.js:316 | `p1_lin` is the same value `dbToLin` gives: the sentinel above 500 dBm, else 10^(op1/10) |
| Resolver.ToLin | javascript/archi_verif.js:313-316 | the linear gain is 10^(gain/10), the noise factor 10^(NF/10) and the compression point 10^(OP1dB/10) up to 500 dB; above 500, and for a NaN NF, each is the sentinel 1e300. The gain is positive and the compression point finite and positive, so it always limits |
| Resolver.InitialChainResolved | javascript/archi_verif.js:88-95 | the effective (gain, NF, OP1dB) of the five example stages |
| Cascade.GainProduct | javascript/archi_verif.js:322 | the product of positive gains is positive |
| Cascade.GainProductAppend | javascript/archi_verif.js:322 | the gain of a concatenation is the product of the gains of its parts |
| Cascade.TotalGain | javascript/archi_verif.js:322 | the `reduce` loop computes the product of all gains |
| Cascade.FriisClosedForm | javascript/archi_verif.js:293 | the stage-by-stage accumulation equals F0 + Σ_{i≥1} (Fi − 1)/(G0·…·G(i−1)) |
| Cascade.FriisStep | javascript/archi_verif.js:293 | one iteration of the loop on prefixes: the noise factor gains the new stage's excess noise over the gain so far, and the gain product gains its gain |
| Cascade.FriisSnoc | javascript/archi_verif.js:293 | one loop step adds the new stage's excess noise over the gain in front of it |
| Cascade.FriisAppendNoiseless | javascript/archi_verif.js:293 | appending a stage with noise factor 1 leaves the total unchanged, whatever its gain |
| Cascade.FriisPrependTransparent | javascript/archi_verif.js:293 | a stage with gain 1 and noise factor 1 in front leaves the total unchanged |
| Cascade.FriisAtLeastFirst | javascript/archi_verif.js:293 | when every noise factor is at least 1, the total is at least the first stage's noise factor |
| Cascade.CalcNF | javascript/archi_verif.js:293 | NaN for an empty chain. Otherwise linToDb of F0 + Σ (Fi − 1)/Π_{j<i} Gj. A one-stage chain gives linToDb(F0) |
| Cascade.SuffixGain | javascript/archi_verif.js:294 | `gain_after[i]` is positive and is 1 at the last stage |
| Cascade.SuffixGainStep | javascript/archi_verif.js:294 | the gain from stage i on is stage i's gain times `gain_after[i]` |
| Cascade.FillSuffixGains | javascript/archi_verif.js:294 | the backward loop stores, at each index, the product of the gains strictly after it |
| Cascade.SumReciprocals | javascript/archi_verif.js:294 | the forward loop computes `inv_sum` over the whole chain, skipping non-limiting stages |
| Cascade.Contribution | javascript/archi_verif.js:294 | a stage's share of `inv_sum` is ≥ 0. It is positive exactly when the stage's compression point is finite and positive |
| Cascade.InvSum | javascript/archi_verif.js:294 | `inv_sum` is ≥ 0. It is 0 exactly when no stage so far limits |
| Cascade.CalcP1db | javascript/archi_verif.js:294 | equals the closed form. −∞ for an empty chain. +∞ exactly when no stage limits. Finite when some stage limits |
| Cascade.InvSumAppend | javascript/archi_verif.js:294 | appending a stage divides the earlier sum by its gain and adds its own reciprocal when it limits. A unity-gain non-limiting stage leaves P1dB unchanged |
| Cascade.LimitingStageGivesFiniteP1 | javascript/archi_verif.js:294 | one limiting stage suffices for a finite output P1dB |
| Analyzer.Linearize | javascript/archi_verif.js:300-319 | one linear record per stage. All gains are positive and every stage limits |
| Analyzer.LinearizeUpdate | javascript/archi_verif.js:300-319 | editing one stage changes only that stage's linear record |
| Analyzer.ComputeAll | javascript/archi_verif.js:296-326 | an empty chain gives the placeholders. Otherwise the totals are the gain product, Friis, the P1dB closed form, and P1 out minus gain. Gain, P1 out and P1 in are always finite. The NF is never NaN or +∞ |
| Analyzer.CascadeTotals | javascript/archi_verif.js:322-326 | the four totals of a non-empty chain whose first stage limits, with the same guarantees |
| Analyzer.NoiseFigureFinite | javascript/archi_verif.js:324 | if every noise factor is at least 1, the total NF is finite |
| Analyzer.NoUnlimitedChain | javascript/archi_verif.js:313-325 | from `computeAll` a non-empty chain always has a finite output P1dB |
| Text.Trim | javascript/s2p_converter.js:44 | no white space at either end of the result; empty exactly for an all-white-space line |
| Text.TrimSlice | javascript/s2p_converter.js:44 | the trimmed line is the slice of the input between a leading and a trailing run of white space, so only white space is cut |
| Text.TrimIdempotent | javascript/s2p_converter.js:44 | trimming twice is trimming once |
| Text.Tokens | javascript/s2p_converter.js:71 | at least one piece, none containing white space |
| Text.TokensOfJoin | javascript/s2p_converter.js:71 | splitting non-empty, space-free pieces joined by single spaces gives back exactly those pieces; derived from `Text.TokensOfRuns` |
| Text.TokensOfRuns | javascript/s2p_converter.js:71 | splitting non-empty, space-free pieces separated by arbitrary non-empty runs of white space (several spaces, tabs, …) gives back exactly those pieces, so the split points are the white-space runs |
| Text.TokensAtRun | javascript/s2p_converter.js:71 | a space-free piece, then a run of white space, then text starting with a non-space splits into that piece followed by the text's pieces |
| Text.TokensConcat | javascript/s2p_converter.js:71 | the pieces concatenated are the line with its white space removed |
| Text.JoinSplit | javascript/s2p_converter.js:40 | joining the pieces of a split gives back the string |
| Text.SplitJoin | javascript/s2p_converter.js:40 | splitting a join of separator-free pieces gives back the pieces |
| Touchstone.UnitScale | javascript/s2p_converter.js:30-35 | ×1e9 exactly for "ghz" and ×1 exactly for "hz", after lower-casing. ×1e6 for everything else, including an empty or unknown unit |
| Touchstone.UnitScaleIgnoresCase | javascript/s2p_converter.js:30 | the unit is matched case-insensitively |
| Touchstone.ToHz | javascript/s2p_converter.js:27-36 | finite exactly for a finite input, and then the input times the unit's factor |
| Touchstone.ParseLines | javascript/s2p_converter.js:38-41 | no line contains `\r` or `\n`. Joining the lines with `\n` gives the input with every `\r` removed |
| Touchstone.ParseLinesOfJoin | javascript/s2p_converter.js:38-41 | parsing the join of clean lines gives back the lines |
| Touchstone.IsCommentLine | javascript/s2p_converter.js:43-46 | the trimmed line starts with `!`, `//` or `;` |
| Touchstone.CommentOfTrimmed | javascript/s2p_converter.js:43-46 | a comment line is one whose trimmed text starts with `!`, `//` or `;`. Trimming first does not change the verdict |
| Touchstone.HeaderUnitOf | javascript/s2p_converter.js:50-58 | what one line says about the unit; its properties are stated by `Touchstone.HeaderUnitOfSpec` |
| Touchstone.HeaderUnitOfSpec | javascript/s2p_converter.js:50-58 | a line names a unit exactly when, trimmed, it starts with `#` and its upper-cased text contains "HZ". The unit is GHz exactly when it contains "GHZ", and MHz when it contains "MHZ" but not "GHZ" |
| Touchstone.FirstSome | javascript/s2p_converter.js:50-60 | the scan returns the first line's result that is present, and none exactly when no line gives one |
| Touchstone.FindHeaderUnit | javascript/s2p_converter.js:48-61 | the unit of the first line that names one; none (`null`) exactly when no line does |
| Touchstone.DecimalPoint | javascript/s2p_converter.js:73 | same length. Only a comma can change, and only the first comma becomes a point |
| Touchstone.Fields | javascript/s2p_converter.js:71-73 | one field per white-space piece of the trimmed line (at least one), each the piece with its first comma read as a point |
| Touchstone.NumericCount | javascript/s2p_converter.js:73 | the count is at most the number of tokens; what it counts is stated by `Touchstone.NumericCountCounts` |
| Touchstone.NumericCountCounts | javascript/s2p_converter.js:73 | the `reduce` counts exactly the tokens that `Number` reads as finite: the count is the size of the set of their positions |
| Touchstone.NumericCountPrefix | javascript/s2p_converter.js:73 | after the first n tokens, the running count of the `reduce` is the number of finite tokens among them |
| Touchstone.NumericCountAllOrNone | javascript/s2p_converter.js:73 | the count is the number of tokens exactly when every token reads as finite, and 0 exactly when none does |
| Touchstone.IsNumericStart | javascript/s2p_converter.js:69 | the first character is in the class `[\d\-\.+]`: an ASCII digit, `-`, `.` or `+` |
| Touchstone.IsDataLine | javascript/s2p_converter.js:65-74 | the tests one line must pass to be the first data line: non-blank, not a comment, first character a digit, sign or point, at least two finite tokens |
| Touchstone.CommentIsNotData | javascript/s2p_converter.js:67 | a comment line is never a data line |
| Touchstone.DataLineWidth | javascript/s2p_converter.js:71-74 | a data line has at least two columns |
| Touchstone.FirstOf | javascript/s2p_converter.js:64-77 | the index of the first accepted line, −1 exactly when no line is accepted |
| Touchstone.FirstIndex | javascript/s2p_converter.js:64-77 | the loop returns the first accepted index |
| Touchstone.FindFirstDataLineIndex | javascript/s2p_converter.js:63-78 | returns an index only if that line is a data line (non-blank, not a comment, starting with `[0-9-.+]`, ≥ 2 numeric tokens) and every earlier line is not. Returns −1 exactly when no line is a data line |
| Touchstone.BuildMapping | javascript/s2p_converter.js:80-105 | total, with freq always 0. ≥ 9 columns give 1/3/5/7. Exactly 8 or 5 give 1/2/3/4. Every other count maps each S-parameter to 1 |
| Touchstone.Lookup | javascript/s2p_converter.js:120-122 | a parameter is found exactly when it is one of the five mapping keys, and each key gives its own column (S21 gives the S21 column, and so on) |
| Touchstone.MappingInRange | javascript/s2p_converter.js:124-129 | every column the mapping for n columns names is below n, for any n ≥ 2, so the column-range error cannot occur |
| Touchstone.RowOf | javascript/s2p_converter.js:137-164 | a line gives a row exactly when it is non-blank, not a comment, has more than `colIndex` tokens, and has a numeric frequency and value. The row is (frequency × unit factor, value) |
| Touchstone.CollectFaithful | javascript/s2p_converter.js:136-165 | the rows are exactly those of the lines that give one, in input order |
| Touchstone.CollectEmpty | javascript/s2p_converter.js:136-170 | no row exactly when no line gives one |
| Touchstone.CollectFrom | javascript/s2p_converter.js:136-165 | the loop collects the rows of the lines from the first data line on |
| Touchstone.BuildOutputText | javascript/s2p_converter.js:107-173 | error exactly when there is no data line. Otherwise: an error for a parameter not in the mapping; the chosen column exists; the table is `freqLabel + " " + headerLabel` followed by the rows from the first data line on, or an error when there are none. The column error never occurs |
| Touchstone.FirstDataLineGivesRow | javascript/s2p_converter.js:109-170 | if the first data line has a numeric frequency and chosen value, the result has at least one row |
| Touchstone.UnitNotice | javascript/s2p_converter.js:182-187 | the notice is set exactly when the first line naming a unit names another one than the chosen unit, compared in lower case |
| Touchstone.NoticeDueAt | javascript/s2p_converter.js:182-187 | only the first line that names a unit decides the notice |
| Touchstone.Convert | javascript/s2p_converter.js:176-199 | blank input is refused. Otherwise the result is what `buildOutputText` gives for the lines of the trimmed input, the chosen parameter (default S21), unit (default MHz) and labels: no data line exactly when none of those lines is one, else the rows from the first data line on. The header is the frequency label (default `freq(Hz)`), a space, and the header label (default `<param>(dB)`). The unit notice is set exactly when the first line naming a unit names another one than the chosen unit, case aside; the conversion's own status then replaces it (`Touchstone.ShownStatusAsWritten`) |
| Touchstone.ResultStatus | javascript/s2p_converter.js:193-196 | the status a conversion ends with is "Conversion OK" exactly on success, and the error message on failure |
| Touchstone.StatusWrites | javascript/s2p_converter.js:177-196 | the click writes the status line first with the clearing call; it writes the unit notice exactly when the notice is due, and last the conversion's status; an empty input gives the refusal |
| Touchstone.ShownStatusAsWritten | javascript/s2p_converter.js:19-25 | each `setStatus` replaces the text, so the line shows the refusal or the conversion's status and never the unit notice |
| Touchstone.UnitNoticeOverwritten | javascript/s2p_converter.js:184-196 | whenever the unit notice is written, it is overwritten before the handler returns |
| Touchstone.ShownStatus | javascript/s2p_converter.js:184-196 | the corrected status line shows the unit notice exactly after a successful conversion with a due notice; otherwise the refusal, the error or "Conversion OK" |
| Touchstone.ShownStatusDiffers | javascript/s2p_converter.js:184-196 | the corrected and the written status lines differ exactly when a due notice follows a successful conversion |

## Left out

- DOM, events and rendering are left out. This covers the stage cards, the
  visibility of inputs, the summary table, help texts, theme, language,
  the wording of status messages and the timers that clear them, the clipboard and the download. These are
  browser I/O. The summary table shows a mixer's gain as `gain_dB`, unlike
  the resolver; it is display only.
- Drag geometry is left out: the midpoint tests that choose the drop gap.
  The gap is an input of `ChainEditing.DropMove`, in [0, N]. What the
  next rendering does with an `undefined` entry (it fails on `data.type`)
  is left out with the rest of the DOM.
- `onCardDrop`, `onContainerDrop` and `onCardDragOver` are never attached
  to any element, so they are not modelled.
- The blur handler of the stage-count input only rewrites the displayed
  value, so it is not modelled.
- `Math.pow`, `Math.log10` and JavaScript's `Number()`/`parseFloat` are
  parameters. IEEE-754 rounding, overflow to ±∞ and underflow to 0 are not
  modelled: arithmetic is exact over reals.
- A typed numeral beyond the double range (such as `1e400`) is a valid
  number-input value, and `parseFloat` reads it as ±Infinity. A parsed
  card field is a finite real in the model, so this case is left out with
  the other overflows.
- `toFixed` and `Math.round` in the displayed totals and the output rows
  are left out: the rows are exact (Hz, value) pairs.
- `t()` (the i18n lookup) is left out. Stage names use the French labels
  as plain strings.
- `parseInt` of the stage-count input is an input `Option<int>`: `None`
  is NaN.
- Touchstone.Lookup: `chosenParam in mapping` also accepts names inherited
  from `Object.prototype` (such as `toString`). The model accepts only the
  five keys the mapping defines.
- Text.Lower and Text.Upper map ASCII letters only. JavaScript maps all
  Unicode letters. The only non-ASCII character whose upper case holds one
  of the letters G, M, H or Z is U+1E96, which becomes "H" followed by the
  combining mark U+0331; that mark keeps the H from being followed by a Z,
  so "GHZ", "MHZ" and "HZ" are found in the same lines either way. No
  non-ASCII character lower-cases to any of g, h, m or z, so the unit
  comparisons after `toLowerCase` agree too.

## Findings

| source | as written | input that shows it | evidently intended | confidence | as-written member | corrected member |
|---|---|---|---|---|---|---|
| javascript/archi_verif.js:406-423 | only a non-number source is rejected; `splice(srcIdx, 1)[0]` of a source past the last card is `undefined`, and it is inserted into `stages` | dragging the text "5" onto a five-stage chain at the first gap (`ChainEditing.DropPastEndInsertsUndefined`) | a source that is not the index of a card is ignored, like a non-number | not executed | ChainEditing.DropMoveAsWritten | ChainEditing.DropMove |
| javascript/s2p_converter.js:184-196 | the unit notice is written with `setStatus`, and the same handler then always calls `setStatus` again with "Conversion OK" or the error message, which replaces the text | a valid file whose `#` line reads `# GHZ S DB R 50`, converted with the unit left at MHz: the notice is written, then "Conversion OK" replaces it (`Touchstone.UnitNoticeOverwritten`) | the notice stays visible after a successful conversion | not executed | Touchstone.ShownStatusAsWritten | Touchstone.ShownStatus |

=== FILE: analyzer.dfy ===
/** `computeAll`: every stage resolved and converted to the linear domain,
    then the totals of the cascade (javascript/archi_verif.js). */
module Analyzer {
  import opened JsNumbers
  import opened Units
  import opened Stages
  import opened Resolver
  import opened Cascade

  /** What the four summary fields receive: the dashes of an empty chain,
      or the total gain, noise figure, output and input compression
      points (dB and dBm). */
  datatype Summary =
    | NoStages
    | Totals(gainDb: JsNum, nfDb: JsNum, p1OutDbm: JsNum, p1InDbm: JsNum)

  /** The linear-domain chain `computeAll` builds, one record per stage. */
  function Linearize(pow10: Pow10, stages: seq<Stage>): (c: seq<LinStage>)
    ensures |c| == |stages|
    ensures PositiveGains(c)
    ensures forall i :: 0 <= i < |c| ==> Limits(c[i].p1Lin)
    ensures forall i :: 0 <= i < |c| ==> c[i] == ToLin(pow10, Resolve(stages[i]))
  {
    seq(|stages|, i requires 0 <= i < |stages| => ToLin(pow10, Resolve(stages[i])))
  }

  /** Editing one stage changes only that stage's linear record. */
  lemma LinearizeUpdate(pow10: Pow10, stages: seq<Stage>, i: nat, s: Stage)
    requires i < |stages|
    ensures Linearize(pow10, stages[i := s])
      == Linearize(pow10, stages)[i := ToLin(pow10, Resolve(s))]
  {
  }

  /** The totals of a chain. The total gain, the output compression point
      and the input compression point are always finite numbers: every
      gain is positive and every stage limits, since an unset or huge
      compression point becomes a finite linear value, never an infinite
      one. The noise figure is never NaN or +∞, and is −∞ exactly when
      the linear noise factor is not positive. */
  method ComputeAll(pow10: Pow10, log10: Log10, stages: seq<Stage>) returns (r: Summary)
    ensures r.NoStages? <==> |stages| == 0
    ensures r.Totals? ==>
      var c := Linearize(pow10, stages);
      && r.gainDb == LinToDb(log10, GainProduct(c))
      && r.nfDb == LinToDb(log10, Friis(c))
      && r.p1OutDbm == P1Out(log10, c)
      && r.p1InDbm == Sub(r.p1OutDbm, r.gainDb)
    ensures r.Totals? ==> r.gainDb.Fin? && r.p1OutDbm.Fin? && r.p1InDbm.Fin?
    ensures r.Totals? ==> r.p1InDbm.v == r.p1OutDbm.v - r.gainDb.v
    ensures r.Totals? ==> !r.nfDb.NaN? && !r.nfDb.PosInf?
  {
    if |stages| == 0 {
      return NoStages;
    }
    var c := Linearize(pow10, stages);
    r := CascadeTotals(log10, c);
  }

  /** The totals of a non-empty linear chain whose first stage limits. */
  method CascadeTotals(log10: Log10, c: seq<LinStage>) returns (r: Summary)
    requires |c| > 0 && PositiveGains(c) && Limits(c[0].p1Lin)
    ensures r.Totals?
    ensures r.gainDb == LinToDb(log10, GainProduct(c))
    ensures r.nfDb == LinToDb(log10, Friis(c))
    ensures r.p1OutDbm == P1Out(log10, c)
    ensures r.p1InDbm == Sub(r.p1OutDbm, r.gainDb)
    ensures r.gainDb.Fin? && r.p1OutDbm.Fin? && r.p1InDbm.Fin?
    ensures r.p1InDbm.v == r.p1OutDbm.v - r.gainDb.v
    ensures !r.nfDb.NaN? && !r.nfDb.PosInf?
  {
    var gprod := TotalGain(c);
    var gainTotal := LinToDb(log10, gprod);
    var nfTotal := CalcNF(log10, c);
    FriisClosedForm(c);
    var p1Out := CalcP1db(log10, c);
    LimitingStageGivesFiniteP1(log10, c, 0);
    var p1In := Sub(p1Out, gainTotal);
    return Totals(gainTotal, nfTotal, p1Out, p1In);
  }

  /** A chain whose stages all have a noise figure of at least 0 dB in
      the linear domain has a finite total noise figure. */
  lemma NoiseFigureFinite(log10: Log10, c: seq<LinStage>)
    requires |c| >= 1 && PositiveGains(c)
    requires forall i :: 0 <= i < |c| ==> c[i].nfLin >= 1.0
    ensures LinToDb(log10, Friis(c)).Fin?
  {
    FriisAtLeastFirst(c);
  }

  /** The +∞ output compression point of `calcP1db` is out of reach from
      `computeAll`: a non-empty chain always has a limiting stage. */
  lemma NoUnlimitedChain(pow10: Pow10, log10: Log10, stages: seq<Stage>)
    requires |stages| > 0
    ensures P1Out(log10, Linearize(pow10, stages)).Fin?
  {
    LimitingStageGivesFiniteP1(log10, Linearize(pow10, stages), 0);
  }
}

=== FILE: cascade.dfy ===
/** The linear-domain cascade of `computeAll`: total gain, the Friis noise
    factor (`calcNF`) and the output compression point (`calcP1db`),
    over exact reals (javascript/archi_verif.js). */
module Cascade {
  import opened JsNumbers
  import opened Units

  /** One stage in the linear domain: power gain, noise factor and output
      compression point. The compression point is a JavaScript number
      because `calcP1db` skips non-finite values. */
  datatype LinStage = LinStage(gainLin: real, nfLin: real, p1Lin: JsNum)

  predicate PositiveGains(c: seq<LinStage>) {
    forall i :: 0 <= i < |c| ==> c[i].gainLin > 0.0
  }

  /** Every part of a chain with positive gains has positive gains. */
  lemma PositiveGainsSlice(c: seq<LinStage>, a: nat, b: nat)
    requires PositiveGains(c) && a <= b <= |c|
    ensures PositiveGains(c[a..b])
  {
    forall k | 0 <= k < b - a
      ensures c[a..b][k].gainLin > 0.0
    {
      assert c[a..b][k] == c[a + k];
    }
  }

  lemma PositiveGainsAppend(c: seq<LinStage>, x: LinStage)
    ensures PositiveGains(c + [x]) <==> PositiveGains(c) && x.gainLin > 0.0
  {
    if PositiveGains(c + [x]) {
      assert (c + [x])[|c|] == x;
      forall k | 0 <= k < |c|
        ensures c[k].gainLin > 0.0
      {
        assert (c + [x])[k] == c[k];
      }
    }
  }

  /** The product of all gains, multiplied in signal order. */
  function GainProduct(c: seq<LinStage>): (r: real)
    ensures PositiveGains(c) ==> r > 0.0
  {
    if |c| == 0 then 1.0 else GainProduct(c[..|c| - 1]) * c[|c| - 1].gainLin
  }

  /** The gain of a cascade is the gain of its first part times the gain
      of the rest. */
  lemma {:induction false} GainProductAppend(a: seq<LinStage>, b: seq<LinStage>)
    ensures GainProduct(a + b) == GainProduct(a) * GainProduct(b)
    decreases |b|
  {
    if |b| == 0 {
      assert a + b == a;
    } else {
      var b' := b[..|b| - 1];
      assert (a + b)[..|a + b| - 1] == a + b';
      GainProductAppend(a, b');
    }
  }

  lemma GainProductCons(x: LinStage, c: seq<LinStage>, xc: seq<LinStage>)
    requires xc == [x] + c
    ensures GainProduct(xc) == x.gainLin * GainProduct(c)
  {
    GainProductConsSplit(x, c, xc);
    GainProductSingle(x);
    SubstFactor(GainProduct(xc), GainProduct([x]), GainProduct(c), x.gainLin);
  }

  lemma GainProductConsSplit(x: LinStage, c: seq<LinStage>, xc: seq<LinStage>)
    requires xc == [x] + c
    ensures GainProduct(xc) == GainProduct([x]) * GainProduct(c)
  {
    GainProductAppend([x], c);
  }

  /** Replacing a factor by an equal value; kept apart so that the solver
      sees no unfolded products while using it. */
  lemma SubstFactor(g: real, a: real, b: real, x: real)
    requires g == a * b && a == x
    ensures g == x * b
  {
  }

  lemma GainProductSingle(x: LinStage)
    ensures GainProduct([x]) == x.gainLin
  {
    assert [x][..0] == [];
  }

  /** Friis' formula, accumulated stage by stage as `calcNF` does: the
      noise factor of the first stage, plus for each later stage its
      excess noise factor divided by the gain in front of it. */
  function Friis(c: seq<LinStage>): real
    requires |c| >= 1 && PositiveGains(c)
  {
    if |c| == 1 then c[0].nfLin
    else Friis(c[..|c| - 1]) + (c[|c| - 1].nfLin - 1.0) / GainProduct(c[..|c| - 1])
  }

  /** The sum of the excess-noise terms of stages `i` and later. */
  function NoiseTerms(c: seq<LinStage>, i: nat): real
    requires PositiveGains(c)
    decreases |c| - i
  {
    if i >= |c| then 0.0
    else (c[i].nfLin - 1.0) / GainProduct(c[..i]) + NoiseTerms(c, i + 1)
  }

  lemma {:induction false} NoiseTermsSnoc(p: seq<LinStage>, c: seq<LinStage>, x: LinStage, i: nat)
    requires c == p + [x] && PositiveGains(p) && PositiveGains(c) && 1 <= i <= |p|
    ensures NoiseTerms(c, i) == NoiseTerms(p, i) + (x.nfLin - 1.0) / GainProduct(p)
    decreases |p| - i
  {
    assert c[..|p|] == p;
    if i < |p| {
      NoiseTermsSnoc(p, c, x, i + 1);
      assert c[..i] == p[..i];
      assert c[i] == p[i];
    }
  }

  /** One step of the accumulation: the last stage adds its excess noise
      factor divided by the gain in front of it. */
  lemma FriisSnoc(c: seq<LinStage>, cx: seq<LinStage>, x: LinStage)
    requires |c| >= 1 && PositiveGains(c) && PositiveGains(cx) && cx == c + [x]
    ensures Friis(cx) == Friis(c) + (x.nfLin - 1.0) / GainProduct(c)
  {
    FriisUnfold(cx);
    assert cx[..|cx| - 1] == c;
  }

  lemma FriisUnfold(c: seq<LinStage>)
    requires |c| >= 2 && PositiveGains(c)
    ensures Friis(c) == Friis(c[..|c| - 1]) + (c[|c| - 1].nfLin - 1.0) / GainProduct(c[..|c| - 1])
  {
  }

  /** The stage-by-stage accumulation is Friis' closed form
      F = F0 + Σ_{i≥1} (Fi − 1) / (G0·…·G(i−1)). */
  lemma {:induction false} FriisClosedForm(c: seq<LinStage>)
    requires |c| >= 1 && PositiveGains(c)
    ensures Friis(c) == c[0].nfLin + NoiseTerms(c, 1)
  {
    if |c| > 1 {
      var p := c[..|c| - 1];
      var x := c[|c| - 1];
      assert c == p + [x];
      PositiveGainsSlice(c, 0, |c| - 1);
      FriisClosedForm(p);
      FriisSnoc(p, c, x);
      NoiseTermsSnoc(p, c, x, 1);
    }
  }

  /** Appending a noiseless stage (noise factor 1) leaves the noise
      factor of the cascade unchanged, whatever its gain. */
  lemma FriisAppendNoiseless(c: seq<LinStage>, x: LinStage)
    requires |c| >= 1 && PositiveGains(c) && x.gainLin > 0.0 && x.nfLin == 1.0
    ensures PositiveGains(c + [x]) && Friis(c + [x]) == Friis(c)
  {
    PositiveGainsAppend(c, x);
    FriisAppendZero(c, c + [x], x);
  }

  lemma FriisAppendZero(c: seq<LinStage>, cx: seq<LinStage>, x: LinStage)
    requires |c| >= 1 && PositiveGains(c) && PositiveGains(cx) && cx == c + [x] && x.nfLin == 1.0
    ensures Friis(cx) == Friis(c)
  {
    FriisSnoc(c, cx, x);
    ZeroOver(x.nfLin - 1.0, GainProduct(c));
  }

  lemma ZeroOver(a: real, g: real)
    requires a == 0.0 && g != 0.0
    ensures a / g == 0.0
  {
  }

  lemma NonNegOver(a: real, g: real)
    requires a >= 0.0 && g > 0.0
    ensures a / g >= 0.0
  {
  }

  /** When no stage has a noise factor below 1 (no noise figure below
      0 dB), the cascade's noise factor is at least that of its first
      stage, so at least 1. */
  lemma {:induction false} FriisAtLeastFirst(c: seq<LinStage>)
    requires |c| >= 1 && PositiveGains(c)
    requires forall i :: 0 <= i < |c| ==> c[i].nfLin >= 1.0
    ensures Friis(c) >= c[0].nfLin >= 1.0
  {
    if |c| > 1 {
      var p := c[..|c| - 1];
      PositiveGainsSlice(c, 0, |c| - 1);
      assert c[..|c| - 1][..] == p;
      assert forall i :: 0 <= i < |p| ==> p[i] == c[i];
      FriisAtLeastFirst(p);
      FriisUnfold(c);
      NonNegOver(c[|c| - 1].nfLin - 1.0, GainProduct(p));
    }
  }

  /** Putting a transparent stage (gain 1, noise factor 1) in front of a
      cascade leaves its noise factor unchanged. */
  lemma {:induction false} FriisPrependTransparent(x: LinStage, c: seq<LinStage>)
    requires |c| >= 1 && PositiveGains([x] + c) && x.gainLin == 1.0 && x.nfLin == 1.0
    ensures PositiveGains(c) && Friis([x] + c) == Friis(c)
  {
    var xc := [x] + c;
    assert forall k :: 0 <= k < |c| ==> c[k] == xc[k + 1];
    if |c| == 1 {
      assert xc[..1] == [x];
      assert GainProduct([x]) == GainProduct([]) * x.gainLin;
    } else {
      var c' := c[..|c| - 1];
      assert xc[..|xc| - 1] == [x] + c';
      FriisPrependTransparent(x, c');
      GainProductAppend([x], c');
      assert GainProduct([x]) == GainProduct([]) * x.gainLin;
    }
  }

  /** The loop's starting point: the first stage alone. */
  lemma PrefixOne(c: seq<LinStage>)
    requires |c| >= 1 && PositiveGains(c)
    ensures PositiveGains(c[..1])
    ensures Friis(c[..1]) == c[0].nfLin
    ensures GainProduct(c[..1]) == c[0].gainLin
  {
    assert c[..1] == [c[0]];
    GainProductSingle(c[0]);
  }

  /** One iteration of the `calcNF` loop, on prefixes of the chain. */
  lemma FriisStep(c: seq<LinStage>, i: nat)
    requires 1 <= i < |c| && PositiveGains(c)
    ensures PositiveGains(c[..i + 1])
    ensures Friis(c[..i + 1]) == Friis(c[..i]) + (c[i].nfLin - 1.0) / GainProduct(c[..i])
    ensures GainProduct(c[..i + 1]) == GainProduct(c[..i]) * c[i].gainLin
  {
    PositiveGainsSlice(c, 0, i);
    PositiveGainsSlice(c, 0, i + 1);
    assert c[..i] == c[0..i] && c[..i + 1] == c[0..i + 1];
    assert c[..i + 1] == c[..i] + [c[i]];
    FriisSnoc(c[..i], c[..i + 1], c[i]);
    GainProductSnoc(c[..i], c[..i + 1], c[i]);
  }

  lemma GainProductSnoc(c: seq<LinStage>, cx: seq<LinStage>, x: LinStage)
    requires cx == c + [x]
    ensures GainProduct(cx) == GainProduct(c) * x.gainLin
  {
    assert cx[..|cx| - 1] == c;
  }

  /** `calcNF`: the Friis loop, then conversion to dB; NaN for an empty
      chain. */
  method CalcNF(log10: Log10, c: seq<LinStage>) returns (r: JsNum)
    requires PositiveGains(c)
    ensures |c| == 0 ==> r.NaN?
    ensures |c| > 0 ==> r == LinToDb(log10, c[0].nfLin + NoiseTerms(c, 1))
    ensures |c| == 1 ==> r == LinToDb(log10, c[0].nfLin)
  {
    if |c| == 0 {
      return NaN;
    }
    var nfTot := c[0].nfLin;
    var gProd := c[0].gainLin;
    var i := 1;
    PrefixOne(c);
    while i < |c|
      invariant 1 <= i <= |c|
      invariant PositiveGains(c[..i])
      invariant nfTot == Friis(c[..i])
      invariant gProd == GainProduct(c[..i])
    {
      FriisStep(c, i);
      nfTot := nfTot + (c[i].nfLin - 1.0) / gProd;
      gProd := gProd * c[i].gainLin;
      i := i + 1;
    }
    assert c[..i] == c;
    FriisClosedForm(c);
    return LinToDb(log10, nfTot);
  }

  /** `calcP1db` skips a compression point that is not finite or not
      positive: such a stage does not limit the cascade. */
  predicate Limits(p: JsNum) {
    p.Fin? && p.v > 0.0
  }

  /** `gain_after[i]`: the gain of the stages strictly after stage `i`. */
  function SuffixGain(c: seq<LinStage>, i: nat): (r: real)
    requires i < |c| && PositiveGains(c)
    ensures r > 0.0
    ensures i == |c| - 1 ==> r == 1.0
  {
    PositiveGainsSlice(c, i + 1, |c|);
    assert c[i + 1..|c|] == c[i + 1..];
    GainProduct(c[i + 1..])
  }

  /** Stage `i` and the stages after it have the gain of stage `i` times
      `gain_after[i]`: the step of the backward loop of `calcP1db`. */
  lemma SuffixGainStep(c: seq<LinStage>, i: nat)
    requires i < |c| && PositiveGains(c)
    ensures GainProduct(c[i..]) == SuffixGain(c, i) * c[i].gainLin
  {
    assert c[i..] == [c[i]] + c[i + 1..];
    GainProductCons(c[i], c[i + 1..], c[i..]);
  }

  /** The share of stage `i` in `inv_sum`: the reciprocal of its
      compression point referred to the chain output. */
  function Contribution(c: seq<LinStage>, i: nat): (r: real)
    requires i < |c| && PositiveGains(c)
    ensures r >= 0.0
    ensures r > 0.0 <==> Limits(c[i].p1Lin)
  {
    if Limits(c[i].p1Lin) then 1.0 / (c[i].p1Lin.v * SuffixGain(c, i)) else 0.0
  }

  /** `inv_sum` after the first `n` stages. It is zero exactly when none
      of them limits the cascade. */
  function InvSum(c: seq<LinStage>, n: nat): (r: real)
    requires n <= |c| && PositiveGains(c)
    ensures r >= 0.0
    ensures r == 0.0 <==> forall i :: 0 <= i < n ==> !Limits(c[i].p1Lin)
  {
    if n == 0 then 0.0 else InvSum(c, n - 1) + Contribution(c, n - 1)
  }

  /** The output compression point `calcP1db` returns, as a closed form:
      minus infinity for an empty chain, plus infinity when no stage
      limits, otherwise the reciprocal of the sum in dB. */
  function P1Out(log10: Log10, c: seq<LinStage>): JsNum
    requires PositiveGains(c)
  {
    if |c| == 0 then NegInf
    else if InvSum(c, |c|) == 0.0 then PosInf
    else LinToDb(log10, 1.0 / InvSum(c, |c|))
  }

  /** `calcP1db`: the backward loop filling `gain_after`, then the forward
      loop summing reciprocal compression points. */
  method CalcP1db(log10: Log10, c: seq<LinStage>) returns (r: JsNum)
    requires PositiveGains(c)
    ensures r == P1Out(log10, c)
    ensures |c| == 0 ==> r.NegInf?
    ensures |c| > 0 ==> (r.PosInf? <==> forall i :: 0 <= i < |c| ==> !Limits(c[i].p1Lin))
    ensures |c| > 0 && (exists i :: 0 <= i < |c| && Limits(c[i].p1Lin)) ==> r.Fin?
  {
    var n := |c|;
    if n == 0 {
      return NegInf;
    }
    var gainAfter := FillSuffixGains(c);
    var invSum := SumReciprocals(c, gainAfter);
    if invSum == 0.0 {
      return PosInf;
    }
    var pTot := 1.0 / invSum;
    return LinToDb(log10, pTot);
  }

  lemma ContributionWith(c: seq<LinStage>, i: nat, g: real)
    requires i < |c| && PositiveGains(c) && g == SuffixGain(c, i)
    ensures InvSum(c, i + 1) == InvSum(c, i)
      + (if Limits(c[i].p1Lin) then 1.0 / (c[i].p1Lin.v * g) else 0.0)
  {
    var ct := Contribution(c, i);
    assert InvSum(c, i + 1) == InvSum(c, i) + ct;
  }

  /** The forward loop of `calcP1db`: the reciprocal compression points
      of the limiting stages, referred to the output through
      `gain_after`. */
  method SumReciprocals(c: seq<LinStage>, gainAfter: seq<real>) returns (invSum: real)
    requires PositiveGains(c) && |gainAfter| == |c|
    requires forall k :: 0 <= k < |c| ==> gainAfter[k] == SuffixGain(c, k)
    ensures invSum == InvSum(c, |c|)
  {
    invSum := 0.0;
    var i := 0;
    while i < |c|
      invariant 0 <= i <= |c|
      invariant invSum == InvSum(c, i)
    {
      var p := c[i].p1Lin;
      ContributionWith(c, i, gainAfter[i]);
      if IsFinite(p) && p.v > 0.0 {
        invSum := invSum + 1.0 / (p.v * gainAfter[i]);
      }
      i := i + 1;
    }
  }

  /** The backward loop of `calcP1db`: `gain_after` starts as all ones and
      position `idx` receives the product of the gains after it. */
  method FillSuffixGains(c: seq<LinStage>) returns (gainAfter: seq<real>)
    requires PositiveGains(c)
    ensures |gainAfter| == |c|
    ensures forall k :: 0 <= k < |c| ==> gainAfter[k] == SuffixGain(c, k)
    ensures |c| > 0 ==> gainAfter[|c| - 1] == 1.0
  {
    var n := |c|;
    gainAfter := seq(n, k => 1.0);
    var prod := 1.0;
    var idx := n - 1;
    assert c[n..] == [];
    while idx >= 0
      invariant -1 <= idx <= n - 1 && |gainAfter| == n
      invariant prod == GainProduct(c[idx + 1..])
      invariant forall k :: idx < k < n ==> gainAfter[k] == SuffixGain(c, k)
    {
      gainAfter := gainAfter[idx := prod];
      SuffixGainStep(c, idx);
      prod := prod * c[idx].gainLin;
      idx := idx - 1;
    }
  }

  lemma DivSum(a: real, b: real, g: real)
    requires g != 0.0
    ensures a / g + b / g == (a + b) / g
  {
  }

  lemma RecipOfScaled(p: real, s: real, g: real)
    requires p != 0.0 && s != 0.0 && g != 0.0
    ensures 1.0 / (p * (s * g)) == (1.0 / (p * s)) / g
  {
  }

  /** A stage appended to the chain divides the share of every earlier
      stage by its gain, since it now follows all of them. */
  lemma ContributionAppend(c: seq<LinStage>, cx: seq<LinStage>, x: LinStage, i: nat)
    requires cx == c + [x] && PositiveGains(c) && PositiveGains(cx) && i < |c|
    requires x.gainLin > 0.0
    ensures Contribution(cx, i) == Contribution(c, i) / x.gainLin
  {
    assert cx[i] == c[i];
    assert cx[i + 1..] == c[i + 1..] + [x];
    GainProductAppend(c[i + 1..], [x]);
    GainProductSingle(x);
    var s := SuffixGain(c, i);
    assert SuffixGain(cx, i) == s * x.gainLin;
    if Limits(c[i].p1Lin) {
      RecipOfScaled(c[i].p1Lin.v, s, x.gainLin);
    }
  }

  lemma {:induction false} InvSumAppendPrefix(c: seq<LinStage>, cx: seq<LinStage>, x: LinStage, n: nat)
    requires cx == c + [x] && PositiveGains(c) && PositiveGains(cx) && n <= |c|
    requires x.gainLin > 0.0
    ensures InvSum(cx, n) == InvSum(c, n) / x.gainLin
  {
    if n > 0 {
      InvSumAppendPrefix(c, cx, x, n - 1);
      ContributionAppend(c, cx, x, n - 1);
      DivSum(InvSum(c, n - 1), Contribution(c, n - 1), x.gainLin);
    }
  }

  /** Appending a stage refers the whole earlier sum through its gain and
      adds the reciprocal of the new stage's own compression point when
      it limits. So a unity-gain stage that does not limit leaves the
      output compression point unchanged, while a limiting one, however
      large its compression point, always makes the sum grow. */
  lemma InvSumAppend(log10: Log10, c: seq<LinStage>, x: LinStage)
    requires PositiveGains(c) && x.gainLin > 0.0
    ensures PositiveGains(c + [x])
    ensures InvSum(c + [x], |c| + 1)
      == InvSum(c, |c|) / x.gainLin + (if Limits(x.p1Lin) then 1.0 / x.p1Lin.v else 0.0)
    ensures |c| > 0 && x.gainLin == 1.0 && !Limits(x.p1Lin) ==> P1Out(log10, c + [x]) == P1Out(log10, c)
    ensures Limits(x.p1Lin) ==> InvSum(c + [x], |c| + 1) > InvSum(c, |c|) / x.gainLin
  {
    PositiveGainsAppend(c, x);
    InvSumAppendLast(log10, c, c + [x], x);
  }

  lemma InvSumAppendLast(log10: Log10, c: seq<LinStage>, cx: seq<LinStage>, x: LinStage)
    requires cx == c + [x] && PositiveGains(c) && PositiveGains(cx) && x.gainLin > 0.0
    ensures InvSum(cx, |c| + 1)
      == InvSum(c, |c|) / x.gainLin + (if Limits(x.p1Lin) then 1.0 / x.p1Lin.v else 0.0)
    ensures |c| > 0 && x.gainLin == 1.0 && !Limits(x.p1Lin) ==> P1Out(log10, cx) == P1Out(log10, c)
    ensures Limits(x.p1Lin) ==> InvSum(cx, |c| + 1) > InvSum(c, |c|) / x.gainLin
  {
    InvSumAppendPrefix(c, cx, x, |c|);
    assert cx[|c|] == x;
    assert SuffixGain(cx, |c|) == 1.0;
    if x.gainLin == 1.0 {
      assert InvSum(c, |c|) / x.gainLin == InvSum(c, |c|);
    }
  }

  /** The `reduce` of `computeAll`: the product of the gains, multiplied
      in signal order starting from 1. */
  method TotalGain(c: seq<LinStage>) returns (g: real)
    ensures g == GainProduct(c)
    ensures PositiveGains(c) ==> g > 0.0
  {
    g := 1.0;
    var i := 0;
    while i < |c|
      invariant 0 <= i <= |c|
      invariant g == GainProduct(c[..i])
    {
      assert c[..i + 1][..i] == c[..i];
      g := g * c[i].gainLin;
      i := i + 1;
    }
    assert c[..i] == c;
  }

  /** A chain with a limiting stage has a finite output compression
      point, whatever the other stages. */
  lemma LimitingStageGivesFiniteP1(log10: Log10, c: seq<LinStage>, i: nat)
    requires PositiveGains(c) && i < |c| && Limits(c[i].p1Lin)
    ensures P1Out(log10, c).Fin?
  {
    assert InvSum(c, |c|) != 0.0;
  }
}

=== FILE: chain_editing.dfy ===
/** The chain editor's structural operations on the stage list: the add
    and remove buttons, the stage-count input, a card's remove button and
    the drop handler that moves a dragged card (javascript/archi_verif.js). */
module ChainEditing {
  import opened Wrappers
  import opened Stages

  /** The add button: a default stage at the end, unless the chain
      already holds the maximum number of stages. */
  function Add(s: seq<Stage>): (r: seq<Stage>)
    ensures |s| >= MaxStages ==> r == s
    ensures |s| < MaxStages ==> |r| == |s| + 1 && r[..|s|] == s && r[|s|] == DefaultStage(|s|)
  {
    if |s| >= MaxStages then s else s + [DefaultStage(|s|)]
  }

  /** The remove button: drop the last stage; nothing happens on an
      empty chain. */
  function RemoveLast(s: seq<Stage>): (r: seq<Stage>)
    ensures |s| == 0 ==> r == s
    ensures |s| > 0 ==> |r| == |s| - 1 && s == r + [s[|s| - 1]]
  {
    if |s| == 0 then s else s[..|s| - 1]
  }

  /** The stage-count input's target: `parseInt` gave NaN (`None`) or a
      number; NaN counts as 0 and the number is clamped into [0, 100]. */
  function ClampCount(v: Option<int>): (n: nat)
    ensures n <= MaxStages
    ensures v.Some? && 0 <= v.value <= MaxStages ==> n == v.value
    ensures v.None? || (v.Some? && v.value <= 0) ==> n == 0
    ensures v.Some? && v.value >= MaxStages ==> n == MaxStages
  {
    match v
    case None => 0
    case Some(x) => if x < 0 then 0 else if x > MaxStages then MaxStages else x
  }

  /** The default stages for positions `from` up to (excluding) `to`. */
  function DefaultStages(from: nat, to: nat): (r: seq<Stage>)
    requires from <= to
    ensures |r| == to - from
    ensures forall k :: 0 <= k < |r| ==> r[k] == DefaultStage(from + k)
  {
    seq(to - from, k requires 0 <= k < to - from => DefaultStage(from + k))
  }

  /** The stage-count input: grow with default stages or truncate until
      the chain has the clamped target length. */
  function Resize(s: seq<Stage>, v: Option<int>): (r: seq<Stage>)
    ensures |r| == ClampCount(v)
    ensures forall i :: 0 <= i < |r| && i < |s| ==> r[i] == s[i]
    ensures forall i :: |s| <= i < |r| ==> r[i] == DefaultStage(i)
  {
    var n := ClampCount(v);
    if n > |s| then s + DefaultStages(|s|, n) else s[..n]
  }

  /** The start position JavaScript's `splice(start, …)` uses for a list
      of length `len`: negative starts count from the end, and starts
      outside the list are clamped to it. */
  function SpliceStart(len: nat, start: int): (k: nat)
    ensures k <= len
    ensures 0 <= start <= len ==> k == start
  {
    if start < 0 then (if len + start < 0 then 0 else len + start)
    else if start > len then len
    else start
  }

  /** A card's remove button: `stages.splice(i, 1)`. */
  function RemoveAt(s: seq<Stage>, i: int): (r: seq<Stage>)
    ensures 0 <= i < |s| ==> |r| == |s| - 1
    ensures 0 <= i < |s| ==> forall j :: 0 <= j < i ==> r[j] == s[j]
    ensures 0 <= i < |s| ==> forall j :: i <= j < |r| ==> r[j] == s[j + 1]
    ensures 0 <= i < |s| ==> multiset(r) + multiset{s[i]} == multiset(s)
    ensures i >= |s| ==> r == s
    ensures -|s| <= i < 0 ==> r == s[..|s| + i] + s[|s| + i + 1..]
    ensures i < -|s| && |s| > 0 ==> r == s[1..]
  {
    var k := SpliceStart(|s|, i);
    if k < |s| then
      assert s == s[..k] + [s[k]] + s[k + 1..];
      s[..k] + s[k + 1..]
    else
      s
  }

  /** `stages.splice(k, 0, x)`: `x` inserted before position `k`. */
  function Insert(s: seq<Stage>, k: nat, x: Stage): (r: seq<Stage>)
    requires k <= |s|
    ensures |r| == |s| + 1 && r[k] == x
    ensures r[..k] == s[..k] && r[k + 1..] == s[k..]
    ensures multiset(r) == multiset(s) + multiset{x}
  {
    assert s == s[..k] + s[k..];
    s[..k] + [x] + s[k..]
  }

  /** Where the drop handler reinserts the stage taken from `src` when the
      drop point is `dest`: one less when the source was before the drop
      point, because removing it shifted the later stages; never below 0. */
  function DropTarget(src: int, dest: int): (t: int)
    ensures 0 <= t
    ensures 0 <= dest <= src ==> t == dest
    ensures src < dest && 0 < dest ==> t == dest - 1
    ensures dest <= 0 ==> t == 0
  {
    var d := if src < dest then dest - 1 else dest;
    if d < 0 then 0 else d
  }

  /** The container's drop handler: the dragged text names the source
      card, and a number that is not the index of a card is ignored, like
      text that is not a number at all. The drop position `dest` is a gap
      between cards, from 0 (before the first) to the number of stages
      (after the last). */
  function DropMove(s: seq<Stage>, src: int, dest: int): (r: seq<Stage>)
    requires 0 <= dest <= |s|
    ensures |r| == |s|
    ensures multiset(r) == multiset(s)
    ensures !(0 <= src < |s|) ==> r == s
    ensures 0 <= src < |s| ==> r == Move(s, src, dest)
  {
    if 0 <= src < |s| then Move(s, src, dest) else s
  }

  /** Moving the card at `src`: remove it and insert it at the adjusted
      drop position. */
  function Move(s: seq<Stage>, src: int, dest: int): (r: seq<Stage>)
    requires 0 <= src < |s| && 0 <= dest <= |s|
    ensures |r| == |s|
    ensures multiset(r) == multiset(s)
    ensures 0 <= DropTarget(src, dest) < |s| && r[DropTarget(src, dest)] == s[src]
    ensures dest == src || dest == src + 1 ==> r == s
  {
    var moved := s[src];
    var rest := RemoveAt(s, src);
    var t := DropTarget(src, dest);
    var r := Insert(rest, t, moved);
    if dest == src || dest == src + 1 then
      InsertRemoved(s, src);
      r
    else
      r
  }

  /** The drop handler as the program writes it. `splice(src, 1)[0]` is
      `undefined` when `src` names no card, and that `undefined` is then
      inserted into the chain; an entry `None` stands for it. A negative
      `src` removes a card counted from the end, as `splice` does, and
      reinserts it at the drop position adjusted by the raw comparison
      `src < dest`. */
  function DropMoveAsWritten(s: seq<Stage>, src: int, dest: int): (r: seq<Option<Stage>>)
    requires 0 <= dest <= |s|
    ensures 0 <= src < |s| ==> r == Lift(Move(s, src, dest))
    ensures src >= |s| ==> |r| == |s| + 1 && r[dest] == None
    ensures src >= |s| ==> r == Lift(s)[..dest] + [None] + Lift(s)[dest..]
    ensures src < 0 && |s| > 0 ==> |r| == |s| && None !in r
    ensures src < 0 && |s| > 0 ==>
      r == Lift(Insert(RemoveAt(s, src), DropTarget(src, dest), s[SpliceStart(|s|, src)]))
    ensures src < 0 && |s| == 0 ==> r == [None]
  {
    var k := SpliceStart(|s|, src);
    var moved := if k < |s| then Some(s[k]) else None;
    var rest := Lift(RemoveAt(s, src));
    var t := SpliceStart(|rest|, DropTarget(src, dest));
    var r := rest[..t] + [moved] + rest[t..];
    if 0 <= src < |s| then
      DropMoveLifted(s, src, dest, r);
      r
    else if src >= |s| then
      assert t == dest && |rest| == |s|;
      r
    else if |s| > 0 then
      assert moved.Some? && |rest| == |s| - 1;
      AllPresent(rest, t, moved);
      LiftInsert(RemoveAt(s, src), t, s[k]);
      r
    else
      r
  }

  /** Inserting a present entry among present entries leaves no
      `undefined`. */
  lemma AllPresent(rest: seq<Option<Stage>>, t: nat, x: Option<Stage>)
    requires t <= |rest| && x.Some?
    requires forall i :: 0 <= i < |rest| ==> rest[i].Some?
    ensures None !in rest[..t] + [x] + rest[t..]
  {
    var r := rest[..t] + [x] + rest[t..];
    forall i | 0 <= i < |r|
      ensures r[i].Some?
    {
      if i < t {
        assert r[i] == rest[i];
      } else if i > t {
        assert r[i] == rest[i - 1];
      }
    }
  }

  /** Every stage of a chain wrapped as a present entry. */
  function Lift(s: seq<Stage>): (r: seq<Option<Stage>>)
    ensures |r| == |s| && forall i :: 0 <= i < |s| ==> r[i] == Some(s[i])
  {
    seq(|s|, i requires 0 <= i < |s| => Some(s[i]))
  }

  lemma DropMoveLifted(s: seq<Stage>, src: int, dest: int, r: seq<Option<Stage>>)
    requires 0 <= src < |s| && 0 <= dest <= |s|
    requires var rest := Lift(RemoveAt(s, src));
      var t := SpliceStart(|rest|, DropTarget(src, dest));
      r == rest[..t] + [Some(s[src])] + rest[t..]
    ensures r == Lift(Move(s, src, dest))
  {
    var t := DropTarget(src, dest);
    var rest := RemoveAt(s, src);
    assert Move(s, src, dest) == rest[..t] + [s[src]] + rest[t..];
    LiftInsert(rest, t, s[src]);
  }

  /** Wrapping commutes with inserting one stage. */
  lemma LiftInsert(rest: seq<Stage>, t: nat, x: Stage)
    requires t <= |rest|
    ensures Lift(rest)[..t] + [Some(x)] + Lift(rest)[t..] == Lift(rest[..t] + [x] + rest[t..])
  {
    var a := Lift(rest)[..t] + [Some(x)] + Lift(rest)[t..];
    var b := Lift(rest[..t] + [x] + rest[t..]);
    forall k | 0 <= k < |a|
      ensures a[k] == b[k]
    {
      if k < t {
        assert a[k] == Lift(rest)[k];
      } else if k > t {
        assert a[k] == Lift(rest)[k - 1];
      }
    }
  }

  /** A negative source counts from the end: source −1 dropped on the
      gap before the last of three cards moves the last card one place
      forward, as `splice(-1, 1)` and the raw `src < dest` test make it. */
  lemma NegativeSourceCountsFromEnd(a: Stage, b: Stage, c: Stage)
    ensures DropMoveAsWritten([a, b, c], -1, 2) == [Some(a), Some(c), Some(b)]
  {
  }

  /** A stage dragged from a five-stage chain's count box ("5") onto the
      gap before the first card puts an `undefined` entry into the chain,
      which the next rendering of the cards cannot display. */
  lemma DropPastEndInsertsUndefined(s: seq<Stage>)
    requires |s| == 5
    ensures DropMoveAsWritten(s, 5, 0)[0] == None
    ensures |DropMoveAsWritten(s, 5, 0)| == 6
  {
  }

  /** Putting a removed stage back where it was restores the chain. */
  lemma InsertRemoved(s: seq<Stage>, i: nat)
    requires i < |s|
    ensures Insert(RemoveAt(s, i), i, s[i]) == s
  {
    var rest := RemoveAt(s, i);
    assert rest == s[..i] + s[i + 1..];
    assert rest[..i] == s[..i] && rest[i..] == s[i + 1..];
    assert s == s[..i] + [s[i]] + s[i + 1..];
  }

  /** Where the stage found at position `k` after a drop move came from. */
  function DropSource(src: int, t: int, k: int): int {
    if k == t then src
    else if src < t && src <= k < t then k + 1
    else if t < src && t < k <= src then k - 1
    else k
  }

  /** The drop move as a permutation of positions: every position of the
      result holds the stage found at `DropSource` of that position. */
  lemma MoveExplicit(s: seq<Stage>, src: int, dest: int)
    requires 0 <= src < |s| && 0 <= dest <= |s|
    ensures forall k :: 0 <= k < |s| ==>
      0 <= DropSource(src, DropTarget(src, dest), k) < |s| &&
      Move(s, src, dest)[k] == s[DropSource(src, DropTarget(src, dest), k)]
  {
    forall k | 0 <= k < |s|
      ensures 0 <= DropSource(src, DropTarget(src, dest), k) < |s|
      ensures Move(s, src, dest)[k] == s[DropSource(src, DropTarget(src, dest), k)]
    {
      MoveAt(s, src, dest, k);
    }
  }

  lemma MoveAt(s: seq<Stage>, src: int, dest: int, k: int)
    requires 0 <= src < |s| && 0 <= dest <= |s| && 0 <= k < |s|
    ensures 0 <= DropSource(src, DropTarget(src, dest), k) < |s|
    ensures Move(s, src, dest)[k] == s[DropSource(src, DropTarget(src, dest), k)]
  {
    var t := DropTarget(src, dest);
    var rest := RemoveAt(s, src);
    var r := Move(s, src, dest);
    assert r == rest[..t] + [s[src]] + rest[t..];
    if k < t {
      assert r[k] == rest[k];
    } else if k > t {
      assert r[k] == rest[k - 1];
    }
  }

  /** Dragging the moved stage from its new position back to the gap in
      front of its old position restores the original chain. */
  lemma {:induction false} MoveUndo(s: seq<Stage>, src: int, dest: int)
    requires 0 <= src < |s| && 0 <= dest <= |s|
    ensures var t := DropTarget(src, dest);
      Move(Move(s, src, dest), t, if t < src then src + 1 else src) == s
  {
    var t := DropTarget(src, dest);
    var back := if t < src then src + 1 else src;
    var m := Move(s, src, dest);
    assert DropTarget(t, back) == src;
    MoveExplicit(s, src, dest);
    MoveExplicit(m, t, back);
    UndoPositions(s, m, Move(m, t, back), src, t);
  }

  /** Two position maps that invert each other compose to the identity. */
  lemma UndoPositions(s: seq<Stage>, m: seq<Stage>, u: seq<Stage>, src: int, t: int)
    requires |m| == |s| && |u| == |s|
    requires forall k :: 0 <= k < |s| ==>
      0 <= DropSource(src, t, k) < |s| && m[k] == s[DropSource(src, t, k)]
    requires forall k :: 0 <= k < |s| ==>
      0 <= DropSource(t, src, k) < |s| && u[k] == m[DropSource(t, src, k)]
    ensures u == s
  {
    forall k | 0 <= k < |s|
      ensures u[k] == s[k]
    {
      DropSourceInverse(src, t, k);
    }
  }

  /** Undoing a move maps every position back to itself. */
  lemma DropSourceInverse(src: int, t: int, k: int)
    ensures DropSource(src, t, DropSource(t, src, k)) == k
  {
  }

  /** Every editing operation keeps a chain within the stage limit. */
  lemma EditsKeepCapacity(s: seq<Stage>, v: Option<int>, i: int, src: int, dest: int, confirmed: bool)
    requires |s| <= MaxStages
    ensures |Add(s)| <= MaxStages && |RemoveLast(s)| <= MaxStages
    ensures |Resize(s, v)| <= MaxStages && |RemoveAt(s, i)| <= MaxStages
    ensures 0 <= dest <= |s| ==> |DropMove(s, src, dest)| <= MaxStages
    ensures |Reset(confirmed, s)| <= MaxStages
  {
  }

  /** The remove button undoes the add button. */
  lemma RemoveLastUndoesAdd(s: seq<Stage>)
    requires |s| < MaxStages
    ensures RemoveLast(Add(s)) == s
  {
  }

  /** The add and remove buttons agree with typing the count one above or
      one below the current length into the stage-count input. */
  lemma AddRemoveAreResizes(s: seq<Stage>)
    requires |s| <= MaxStages
    ensures |s| < MaxStages ==> Add(s) == Resize(s, Some(|s| + 1))
    ensures |s| > 0 ==> RemoveLast(s) == Resize(s, Some(|s| - 1))
  {
    if |s| < MaxStages {
      assert Add(s) == s + DefaultStages(|s|, |s| + 1);
    }
  }

  /** Entering the same count twice has the effect of entering it once. */
  lemma ResizeIdempotent(s: seq<Stage>, v: Option<int>)
    ensures Resize(Resize(s, v), v) == Resize(s, v)
  {
  }
}

=== FILE: jsnumbers.dfy ===
/** JavaScript numbers as far as the analyzer needs them: a finite value,
    one of the two infinities, or NaN. Finite values are exact reals; the
    rounding of IEEE-754 doubles is not modelled. */
module JsNumbers {

  datatype JsNum = Fin(v: real) | PosInf | NegInf | NaN

  /** JavaScript `isFinite(n)`. */
  predicate IsFinite(n: JsNum) {
    n.Fin?
  }

  /** JavaScript `x || d` where `x` is a number that is never NaN:
      the only falsy such number is 0. */
  function OrElse(x: real, d: real): real {
    if x != 0.0 then x else d
  }

  function Abs(x: real): real {
    if x < 0.0 then -x else x
  }

  /** JavaScript subtraction `a - b` on numbers, infinities included. */
  function Sub(a: JsNum, b: JsNum): (r: JsNum)
    ensures IsFinite(a) && IsFinite(b) ==> r == Fin(a.v - b.v)
    ensures a.NaN? || b.NaN? ==> r.NaN?
    ensures a == b && !IsFinite(a) ==> r.NaN?
  {
    match (a, b)
    case (NaN, _) => NaN
    case (_, NaN) => NaN
    case (PosInf, PosInf) => NaN
    case (NegInf, NegInf) => NaN
    case (PosInf, _) => PosInf
    case (NegInf, _) => NegInf
    case (Fin(_), PosInf) => NegInf
    case (Fin(_), NegInf) => PosInf
    case (Fin(x), Fin(y)) => Fin(x - y)
  }
}

=== FILE: resolver.dfy ===
/** The per-type resolver of `computeAll`: how a stage's raw fields become
    the effective gain, noise figure and output compression point the
    cascade uses, and their linear-domain values
    (javascript/archi_verif.js). */
module Resolver {
  import opened JsNumbers
  import opened Units
  import opened Stages
  import opened Cascade

  /** The effective values of one stage, in dB and dBm. The noise figure
      can be NaN: an amplifier whose stored noise figure is NaN keeps it. */
  datatype Resolved = Resolved(gainDb: real, nfDb: JsNum, op1Dbm: real)

  /** Filters, attenuators and switches: stages described by a loss only. */
  predicate IsPassive(k: StageKind) {
    k == Filter || k == Atten || k == Switch
  }

  /** The compression point used when the field is 0 (unset). */
  const DefaultOp1Dbm: real := 1000.0

  /** The effective (gain, noise figure, OP1dB) of a stage. */
  function Resolve(s: Stage): (r: Resolved)
    // passive stages: the loss is both the attenuation and the noise figure
    ensures IsPassive(s.kind) ==> r.gainDb == -s.lossDb && r.nfDb == Fin(s.lossDb)
    // mixers: conversion loss; a missing, NaN or zero noise figure falls back to |loss|
    ensures s.kind == Mixer ==> r.gainDb == -s.lossDb
    ensures s.kind == Mixer && NfTruthy(s.nf) ==> r.nfDb == Fin(s.nf.db)
    ensures s.kind == Mixer && !NfTruthy(s.nf) ==> r.nfDb == Fin(Abs(s.lossDb))
    // amplifiers and unknown types: the gain field, and any present noise figure, 0 included
    ensures s.kind in {Ampli, Unknown} ==> r.gainDb == s.gainDb
    ensures s.kind in {Ampli, Unknown} && s.nf.NfDb? ==> r.nfDb == Fin(s.nf.db)
    ensures s.kind in {Ampli, Unknown} && s.nf.NfNaN? ==> r.nfDb.NaN?
    ensures s.kind in {Ampli, Unknown} && s.nf.NfUnset? ==> r.nfDb == Fin(Abs(s.gainDb))
    // the compression point: 1000 dBm when unset (0), never 0
    ensures r.op1Dbm == (if s.op1Dbm == 0.0 then DefaultOp1Dbm else s.op1Dbm)
    ensures r.op1Dbm != 0.0
  {
    var op1 := OrElse(s.op1Dbm, DefaultOp1Dbm);
    if IsPassive(s.kind) then
      var loss := OrElse(s.lossDb, 0.0);
      Resolved(-loss, Fin(loss), op1)
    else if s.kind == Mixer then
      var gain := -OrElse(s.lossDb, 0.0);
      Resolved(gain, if NfTruthy(s.nf) then Fin(s.nf.db) else Fin(Abs(gain)), op1)
    else
      var gain := OrElse(s.gainDb, 0.0);
      var nf := match s.nf
        case NfUnset => Fin(Abs(gain))
        case NfNaN => NaN
        case NfDb(v) => Fin(v);
      Resolved(gain, nf, op1)
  }

  /** Only the fields a type uses matter: passive stages ignore the gain
      and noise-figure fields, mixers the gain field, amplifiers the loss
      field, and no type looks at the name. Changing a stage's type
      therefore switches its meaning without re-entering any value. */
  lemma ResolveIgnoresUnusedFields(s: Stage, t: Stage)
    requires s.kind == t.kind && s.op1Dbm == t.op1Dbm
    ensures IsPassive(s.kind) && s.lossDb == t.lossDb ==> Resolve(s) == Resolve(t)
    ensures s.kind == Mixer && s.lossDb == t.lossDb && s.nf == t.nf ==> Resolve(s) == Resolve(t)
    ensures s.kind in {Ampli, Unknown} && s.gainDb == t.gainDb && s.nf == t.nf ==> Resolve(s) == Resolve(t)
  {
  }

  /** `p1_lin`: the sentinel above 500 dBm, otherwise 10^(op1/10); the
      same value `dbToLin` gives for that finite input. */
  function P1Lin(pow10: Pow10, op1: real): (r: real)
    ensures r == DbToLin(pow10, Fin(op1))
  {
    if op1 > MaxDb then Sentinel else pow10(op1 / 10.0)
  }

  /** The linear-domain record `computeAll` builds for the cascade. */
  function ToLin(pow10: Pow10, r: Resolved): (l: LinStage)
    ensures l.gainLin > 0.0
    ensures Limits(l.p1Lin)
    // the gain: 10^(dB/10), or the sentinel above 500 dB
    ensures r.gainDb <= MaxDb ==> l.gainLin == pow10(r.gainDb / 10.0)
    ensures r.gainDb > MaxDb ==> l.gainLin == Sentinel
    // the noise factor: the same, and the sentinel for a NaN or infinite noise figure
    ensures r.nfDb.Fin? && r.nfDb.v <= MaxDb ==> l.nfLin == pow10(r.nfDb.v / 10.0)
    ensures !r.nfDb.Fin? || r.nfDb.v > MaxDb ==> l.nfLin == Sentinel
    // the compression point: the sentinel above 500 dBm
    ensures r.op1Dbm <= MaxDb ==> l.p1Lin == Fin(pow10(r.op1Dbm / 10.0))
    ensures r.op1Dbm > MaxDb ==> l.p1Lin == Fin(Sentinel)
  {
    LinStage(DbToLin(pow10, Fin(r.gainDb)), DbToLin(pow10, r.nfDb), Fin(P1Lin(pow10, r.op1Dbm)))
  }

  /** The resolved values of the example chain: losses 1, 0.8, 6 and 1 dB
      around a 20 dB amplifier, with the mixer's noise figure given. */
  lemma InitialChainResolved()
    ensures var c := InitialChain();
      && Resolve(c[0]) == Resolved(-1.0, Fin(1.0), 35.0)
      && Resolve(c[1]) == Resolved(20.0, Fin(1.0), 18.0)
      && Resolve(c[2]) == Resolved(-0.8, Fin(0.8), 38.0)
      && Resolve(c[3]) == Resolved(-6.0, Fin(6.0), 10.0)
      && Resolve(c[4]) == Resolved(-1.0, Fin(1.0), 40.0)
  {
  }
}

=== FILE: stages.dfy ===
/** The stage records the chain editor stores, its default stages, and the
    write-back that copies a stage card's form fields into its record
    (javascript/archi_verif.js). */
module Stages {
  import opened JsNumbers
  import opened Text

  /** A stage's `type`. The form offers the first five values; `Unknown`
      stands for any other value, which the resolver treats like an
      amplifier. */
  datatype StageKind = Ampli | Filter | Atten | Switch | Mixer | Unknown

  /** The stored `nf_dB` field. Write-back stores `parseFloat(text)`
      without a fall-back, so the record type admits an absent
      (`undefined`/`null`) and a NaN value besides a number. Neither
      arises from the program's own edits: a number input's value is
      either empty or a valid floating-point numeral, and write-back only
      parses a non-empty one. */
  datatype NfField = NfUnset | NfNaN | NfDb(db: real)

  /** One stage record: name, type, gain, noise figure, insertion (or
      conversion) loss and output 1-dB compression point. */
  datatype Stage = Stage(
    name: string,
    kind: StageKind,
    gainDb: real,
    nf: NfField,
    lossDb: real,
    op1Dbm: real)

  /** Largest number of stages the editor lets the chain grow to. */
  const MaxStages: nat := 100

  /** JavaScript truthiness of the stored noise figure. */
  predicate NfTruthy(nf: NfField) {
    nf.NfDb? && nf.db != 0.0
  }

  /** `defaultStage(i)`: the amplifier appended at position `i`. Its name
      uses the French "filter" label followed by `i + 1`. */
  function DefaultStage(i: nat): (r: Stage)
    ensures r.kind == Ampli && Sanitized(r)
    ensures r.name == "Filtre " + NatToString(i + 1)
    ensures r.gainDb == 15.0 && r.nf == NfDb(3.0) && r.lossDb == 1.0 && r.op1Dbm == 23.0
  {
    Stage("Filtre " + NatToString(i + 1), Ampli, 15.0, NfDb(3.0), 1.0, 23.0)
  }

  /** `initialChain()`: the five-stage example chain. */
  function InitialChain(): (r: seq<Stage>)
    ensures |r| == 5
    ensures forall i :: 0 <= i < |r| ==> Sanitized(r[i])
  {
    [ Stage("Filtre 1", Filter, 0.0, NfDb(1.0), 1.0, 35.0),
      Stage("LNA 1", Ampli, 20.0, NfDb(1.0), 0.0, 18.0),
      Stage("Filtre 2", Filter, 0.0, NfDb(0.8), 0.8, 38.0),
      Stage("Mixer 1", Mixer, 0.0, NfDb(6.0), 6.0, 10.0),
      Stage("Filtre 3", Filter, 0.0, NfDb(1.0), 1.0, 40.0) ]
  }

  /** The reset button: the example chain once the user confirms. */
  function Reset(confirmed: bool, stages: seq<Stage>): (r: seq<Stage>)
    ensures !confirmed ==> r == stages
    ensures confirmed ==> |r| == 5 && r[1].kind == Ampli && r[3].kind == Mixer
    ensures confirmed ==> forall i | i in {0, 2, 4} :: r[i].kind == Filter
  {
    if confirmed then InitialChain() else stages
  }

  /** What `parseFloat` makes of one number input: the text was empty,
      did not parse (NaN), or parsed to a number. A number input's value
      is empty or a valid numeral, so `Unparsable` is kept only to state
      the fall-backs for it. */
  datatype FieldText = Blank | Unparsable | Parsed(v: real)

  /** The values of a stage card's inputs when write-back runs. */
  datatype Form = Form(
    name: string,
    kind: StageKind,
    gain: FieldText,
    nf: FieldText,
    loss: FieldText,
    op1: FieldText)

  /** `parseFloat(text) || d`: the parsed number unless it is 0 or the
      text gave none. */
  function ParseOr(f: FieldText, d: real): (r: real)
    ensures f.Parsed? && f.v != 0.0 ==> r == f.v
    ensures !(f.Parsed? && f.v != 0.0) ==> r == d
  {
    match f
    case Parsed(v) => OrElse(v, d)
    case _ => d
  }

  /** The noise figure write-back stores: the parsed text when the input
      is not empty, otherwise the old value or 0 when that is falsy. */
  function WriteBackNf(prev: NfField, f: FieldText): (r: NfField)
    ensures f.Parsed? ==> r == NfDb(f.v)
    ensures f == Unparsable ==> r == NfNaN
    ensures f == Blank ==> r.NfDb? && (NfTruthy(r) <==> NfTruthy(prev))
    ensures f == Blank && NfTruthy(prev) ==> r == prev
  {
    match f
    case Blank => if NfTruthy(prev) then prev else NfDb(0.0)
    case Unparsable => NfNaN
    case Parsed(v) => NfDb(v)
  }

  /** `writeBack()`: copy the card's inputs into the stage record,
      replacing unparsable or zero gain and loss by 0 and an unparsable or
      zero compression point by 1000 dBm. */
  function WriteBack(s: Stage, f: Form): (r: Stage)
    ensures r.name == f.name && r.kind == f.kind
    ensures r.op1Dbm != 0.0
    ensures f.op1.Parsed? && f.op1.v != 0.0 ==> r.op1Dbm == f.op1.v
    ensures !(f.op1.Parsed? && f.op1.v != 0.0) ==> r.op1Dbm == 1000.0
    ensures f.nf != Unparsable ==> r.nf.NfDb?
    ensures f.nf.Parsed? ==> r.nf == NfDb(f.nf.v)
    ensures f.nf == Unparsable ==> r.nf == NfNaN
    ensures f.nf == Blank ==> r.nf == (if NfTruthy(s.nf) then s.nf else NfDb(0.0))
    ensures f.gain.Parsed? ==> r.gainDb == f.gain.v
    ensures !f.gain.Parsed? ==> r.gainDb == 0.0
    ensures f.loss.Parsed? ==> r.lossDb == f.loss.v
    ensures !f.loss.Parsed? ==> r.lossDb == 0.0
  {
    Stage(f.name, f.kind, ParseOr(f.gain, 0.0), WriteBackNf(s.nf, f.nf),
          ParseOr(f.loss, 0.0), ParseOr(f.op1, 1000.0))
  }

  /** A record write-back leaves as it is: its compression point is not 0
      and its noise figure is a number. */
  predicate Sanitized(s: Stage) {
    s.op1Dbm != 0.0 && s.nf.NfDb?
  }

  /** The inputs a stage card shows for a record (`makeStageCard`): each
      number is printed into its input; an absent or NaN noise figure is
      not a valid number and the input shows empty. */
  function Render(s: Stage): (r: Form)
    ensures r.name == s.name && r.kind == s.kind
    ensures r.gain == Parsed(s.gainDb) && r.loss == Parsed(s.lossDb) && r.op1 == Parsed(s.op1Dbm)
    ensures r.nf == Blank <==> !s.nf.NfDb?
    ensures s.nf.NfDb? ==> r.nf == Parsed(s.nf.db)
  {
    Form(s.name, s.kind, Parsed(s.gainDb),
         if s.nf.NfDb? then Parsed(s.nf.db) else Blank,
         Parsed(s.lossDb), Parsed(s.op1Dbm))
  }

  /** Stages appended at different positions get different names. */
  lemma DefaultNamesDistinct(i: nat, j: nat)
    requires i != j
    ensures DefaultStage(i).name != DefaultStage(j).name
  {
    var a, b := NatToString(i + 1), NatToString(j + 1);
    NatToStringInjective(i + 1, j + 1);
    assert ("Filtre " + a)[7..] == a && ("Filtre " + b)[7..] == b;
  }

  /** Write-back applied twice with the same inputs changes nothing more. */
  lemma WriteBackIdempotent(s: Stage, f: Form)
    ensures WriteBack(WriteBack(s, f), f) == WriteBack(s, f)
  {
  }

  /** Rendering a record and writing its card straight back returns the
      record exactly when it is already sanitized. */
  lemma RenderWriteBack(s: Stage)
    ensures WriteBack(s, Render(s)) == s <==> Sanitized(s)
  {
  }
}

=== FILE: text.dfy ===
/** String helpers with JavaScript's meaning: `trim`, `split(/\s+/)`,
    `split('\n')`/`join('\n')`, ASCII case mapping, `startsWith` and
    `includes`. Strings are sequences of characters. */
module Text {

  /** JavaScript white space and line terminators: the characters `trim`
      removes and the regular-expression class `\s` matches. */
  predicate IsSpace(c: char) {
    || c == ' ' || c == '\t' || c == '\n' || c == '\r'
    || c == '\U{000B}' || c == '\U{000C}' || c == '\U{00A0}' || c == '\U{1680}'
    || ('\U{2000}' <= c <= '\U{200A}')
    || c == '\U{2028}' || c == '\U{2029}' || c == '\U{202F}' || c == '\U{205F}'
    || c == '\U{3000}' || c == '\U{FEFF}'
  }

  predicate NoSpace(s: string) {
    forall k :: 0 <= k < |s| ==> !IsSpace(s[k])
  }

  predicate AllSpace(s: string) {
    forall k :: 0 <= k < |s| ==> IsSpace(s[k])
  }

  /** `s` without its leading white space. */
  function TrimStart(s: string): (r: string)
    ensures |r| <= |s| && r == s[|s| - |r|..]
    ensures AllSpace(s[..|s| - |r|])
    ensures r == [] || !IsSpace(r[0])
    ensures |s| > 0 && IsSpace(s[0]) ==> |r| < |s|
  {
    if |s| > 0 && IsSpace(s[0]) then
      var r := TrimStart(s[1..]);
      TrimStartStep(s, r);
      r
    else s
  }

  lemma TrimStartStep(s: string, r: string)
    requires |s| > 0 && IsSpace(s[0])
    requires |r| <= |s| - 1 && r == s[1..][|s| - 1 - |r|..]
    requires AllSpace(s[1..][..|s| - 1 - |r|])
    ensures r == s[|s| - |r|..]
    ensures AllSpace(s[..|s| - |r|])
  {
    var n := |s| - |r|;
    assert s[1..][n - 1..] == s[n..];
    forall k | 0 <= k < n
      ensures IsSpace(s[..n][k])
    {
      if k > 0 {
        assert s[1..][..n - 1][k - 1] == s[k];
      }
    }
  }

  /** `s` without its trailing white space. */
  function TrimEnd(s: string): (r: string)
    ensures |r| <= |s| && r == s[..|r|]
    ensures AllSpace(s[|r|..])
    ensures r == [] || !IsSpace(r[|r| - 1])
  {
    if |s| > 0 && IsSpace(s[|s| - 1]) then
      var r := TrimEnd(s[..|s| - 1]);
      TrimEndStep(s, r);
      r
    else s
  }

  lemma TrimEndStep(s: string, r: string)
    requires |s| > 0 && IsSpace(s[|s| - 1])
    requires |r| <= |s| - 1 && r == s[..|s| - 1][..|r|]
    requires AllSpace(s[..|s| - 1][|r|..])
    ensures r == s[..|r|]
    ensures AllSpace(s[|r|..])
  {
    assert s[..|s| - 1][..|r|] == s[..|r|];
    forall k | 0 <= k < |s| - |r|
      ensures IsSpace(s[|r|..][k])
    {
      if |r| + k < |s| - 1 {
        assert s[..|s| - 1][|r|..][k] == s[|r| + k];
      }
    }
  }

  /** JavaScript `s.trim()`. */
  function Trim(s: string): (r: string)
    ensures r == [] || (!IsSpace(r[0]) && !IsSpace(r[|r| - 1]))
    ensures r == [] <==> AllSpace(s)
  {
    var t := TrimStart(s);
    var r := TrimEnd(t);
    TrimBothEnds(s, t, r);
    r
  }

  /** Trimming cuts a run of white space from each end and nothing else:
      the result is the slice of `s` between those runs. */
  lemma TrimSlice(s: string)
    ensures Enclosed(s, Trim(s))
  {
    TrimMiddle(s, TrimStart(s), Trim(s));
  }

  /** `r` is `s` with a run of white space cut from each end. */
  predicate Enclosed(s: string, r: string) {
    exists i :: 0 <= i <= |s| - |r| && r == s[i..i + |r|]
                && AllSpace(s[..i]) && AllSpace(s[i + |r|..])
  }

  /** The trimmed string sits in `s` between two runs of white space. */
  lemma TrimMiddle(s: string, t: string, r: string)
    requires |t| <= |s| && t == s[|s| - |t|..] && AllSpace(s[..|s| - |t|])
    requires |r| <= |t| && r == t[..|r|] && AllSpace(t[|r|..])
    ensures Enclosed(s, r)
  {
    var i := |s| - |t|;
    assert r == s[i..i + |r|];
    assert s[i + |r|..] == t[|r|..];
  }

  lemma TrimBothEnds(s: string, t: string, r: string)
    requires |t| <= |s| && t == s[|s| - |t|..] && AllSpace(s[..|s| - |t|])
    requires t == [] || !IsSpace(t[0])
    requires |r| <= |t| && r == t[..|r|] && AllSpace(t[|r|..])
    requires r == [] || !IsSpace(r[|r| - 1])
    ensures r == [] || (!IsSpace(r[0]) && !IsSpace(r[|r| - 1]))
    ensures r == [] <==> AllSpace(s)
  {
    var n := |s| - |t|;
    if r == [] {
      assert t[|r|..] == t;
      assert n == |s|;
      forall k | 0 <= k < |s|
        ensures IsSpace(s[k])
      {
        assert s[..n][k] == s[k];
      }
    } else {
      assert r[0] == t[0] == s[n];
    }
  }

  /** Trimming twice is trimming once. */
  lemma TrimIdempotent(s: string)
    ensures Trim(Trim(s)) == Trim(s)
  {
    var r := Trim(s);
    if r != [] {
      assert TrimStart(r) == r;
      assert TrimEnd(r) == r;
    }
  }

  /** Index of the first white-space character of `s`, or |s| when none. */
  function FirstSpace(s: string): (i: nat)
    ensures i <= |s|
    ensures i < |s| ==> IsSpace(s[i])
    ensures NoSpace(s[..i])
  {
    if |s| == 0 || IsSpace(s[0]) then 0 else 1 + FirstSpace(s[1..])
  }

  /** JavaScript `s.split(/\s+/)`: the pieces between maximal runs of
      white space. A leading (trailing) run yields an empty first (last)
      piece, and the empty string yields one empty piece. */
  function Tokens(s: string): (r: seq<string>)
    ensures |r| >= 1
    ensures forall k :: 0 <= k < |r| ==> NoSpace(r[k])
    decreases |s|
  {
    var i := FirstSpace(s);
    if i == |s| then
      assert s[..i] == s;
      [s]
    else
      [s[..i]] + Tokens(TrimStart(s[i..]))
  }

  /** Every piece of a trimmed, non-blank string is non-empty. */
  lemma {:induction false} TokensOfTrimmedNonEmpty(s: string)
    requires s != [] && !IsSpace(s[0]) && !IsSpace(s[|s| - 1])
    ensures forall k :: 0 <= k < |Tokens(s)| ==> Tokens(s)[k] != []
  {
    var i := FirstSpace(s);
    if i < |s| {
      var t := s[i..];
      assert t[|t| - 1] == s[|s| - 1];
      var rest := TrimStart(t);
      TrimStartKeepsLast(t);
      TokensOfTrimmedNonEmpty(rest);
      var ts := Tokens(rest);
      assert Tokens(s) == [s[..i]] + ts;
      assert s[..i] != [];
      forall k | 0 <= k < |Tokens(s)|
        ensures Tokens(s)[k] != []
      {
        if k > 0 {
          assert Tokens(s)[k] == ts[k - 1];
        }
      }
    }
  }

  /** Trimming the front of a string that ends in a non-space keeps that
      last character. */
  lemma {:induction false} TrimStartKeepsLast(t: string)
    requires t != [] && !IsSpace(t[|t| - 1])
    ensures TrimStart(t) != [] && TrimStart(t)[|TrimStart(t)| - 1] == t[|t| - 1]
    decreases |t|
  {
    if IsSpace(t[0]) {
      var u := t[1..];
      assert |t| > 1 && u[|u| - 1] == t[|t| - 1];
      TrimStartKeepsLast(u);
    }
  }

  /** Splitting on white space undoes joining non-empty, space-free
      pieces with single spaces: the single-space case of
      `TokensOfRuns`. */
  lemma TokensOfJoin(parts: seq<string>)
    requires |parts| >= 1
    requires forall k :: 0 <= k < |parts| ==> parts[k] != [] && NoSpace(parts[k])
    ensures Tokens(Join(parts, ' ')) == parts
  {
    var seps := seq(|parts| - 1, _ => " ");
    JoinIsInterleave(parts, seps);
    TokensOfRuns(parts, seps);
  }

  /** Joining with one character is interleaving with that character
      between every two pieces. */
  lemma {:induction false} JoinIsInterleave(parts: seq<string>, seps: seq<string>)
    requires |parts| >= 1 && |seps| == |parts| - 1
    requires forall k :: 0 <= k < |seps| ==> seps[k] == " "
    ensures Join(parts, ' ') == Interleave(parts, seps)
    decreases |parts|
  {
    if |parts| > 1 {
      JoinIsInterleave(parts[1..], seps[1..]);
    }
  }

  /** Pieces separated by the given runs: `parts[0] + seps[0] + parts[1]
      + … + parts[n - 1]`. */
  function Interleave(parts: seq<string>, seps: seq<string>): string
    requires |parts| >= 1 && |seps| == |parts| - 1
    decreases |parts|
  {
    if |parts| == 1 then parts[0] else parts[0] + seps[0] + Interleave(parts[1..], seps[1..])
  }

  /** Non-empty pieces without white space. */
  predicate Pieces(parts: seq<string>) {
    forall k :: 0 <= k < |parts| ==> parts[k] != [] && NoSpace(parts[k])
  }

  /** Non-empty runs of white space. */
  predicate Runs(seps: seq<string>) {
    forall k :: 0 <= k < |seps| ==> seps[k] != [] && AllSpace(seps[k])
  }

  /** Splitting on white space undoes separating non-empty, space-free
      pieces by arbitrary non-empty runs of white space (several spaces,
      tabs, …): the pieces are recovered exactly, so the split points are
      the runs. */
  lemma {:induction false} TokensOfRuns(parts: seq<string>, seps: seq<string>)
    requires |parts| >= 1 && |seps| == |parts| - 1
    requires Pieces(parts) && Runs(seps)
    ensures Tokens(Interleave(parts, seps)) == parts
    decreases |parts|
  {
    if |parts| == 1 {
      FirstSpaceOfNoSpace(parts[0]);
      assert parts[0][..|parts[0]|] == parts[0];
    } else {
      var ps, ss := parts[1..], seps[1..];
      HeadTail(parts);
      PiecesRunsTail(parts, seps);
      TokensOfRuns(ps, ss);
      var b := Interleave(ps, ss);
      InterleaveStartsWith(ps, ss);
      TokensAtRunOf(parts[0], seps[0], b, ps);
      assert Interleave(parts, seps) == parts[0] + seps[0] + b;
    }
  }

  lemma HeadTail<T>(s: seq<T>)
    requires |s| >= 1
    ensures [s[0]] + s[1..] == s
  {
  }

  lemma PiecesRunsTail(parts: seq<string>, seps: seq<string>)
    requires |parts| >= 2 && |seps| == |parts| - 1 && Pieces(parts) && Runs(seps)
    ensures Pieces(parts[1..]) && Runs(seps[1..])
    ensures parts[0] != [] && NoSpace(parts[0]) && seps[0] != [] && AllSpace(seps[0])
    ensures parts[1..][0] != []
  {
    assert forall k :: 0 <= k < |parts| - 1 ==> parts[1..][k] == parts[k + 1];
    assert forall k :: 0 <= k < |seps| - 1 ==> seps[1..][k] == seps[k + 1];
  }

  lemma TokensAtRunOf(a: string, w: string, b: string, ps: seq<string>)
    requires NoSpace(a) && w != [] && AllSpace(w) && b != [] && !IsSpace(b[0])
    requires Tokens(b) == ps
    ensures Tokens(a + w + b) == [a] + ps
  {
    TokensAtRun(a, w, b);
  }

  /** An interleaving starts with the first piece's first character. */
  lemma InterleaveStartsWith(parts: seq<string>, seps: seq<string>)
    requires |parts| >= 1 && |seps| == |parts| - 1 && parts[0] != []
    ensures |Interleave(parts, seps)| > 0 && Interleave(parts, seps)[0] == parts[0][0]
  {
  }

  /** A space-free piece, a run of white space, and a string that does not
      start with white space split into that piece and the string's
      pieces. */
  lemma TokensAtRun(a: string, w: string, b: string)
    requires NoSpace(a) && w != [] && AllSpace(w) && b != [] && !IsSpace(b[0])
    ensures Tokens(a + w + b) == [a] + Tokens(b)
  {
    var s := a + w + b;
    FirstSpaceAtRun(a, w, b);
    assert s[..|a|] == a;
    assert s[|a|..] == w + b;
    TrimStartOfRun(w, b);
  }

  lemma {:induction false} FirstSpaceAtRun(a: string, w: string, b: string)
    requires NoSpace(a) && w != [] && IsSpace(w[0])
    ensures FirstSpace(a + w + b) == |a|
  {
    if |a| > 0 {
      assert (a + w + b)[1..] == a[1..] + w + b;
      FirstSpaceAtRun(a[1..], w, b);
    } else {
      assert a + w + b == w + b;
    }
  }

  lemma {:induction false} TrimStartOfRun(w: string, b: string)
    requires AllSpace(w) && (b == [] || !IsSpace(b[0]))
    ensures TrimStart(w + b) == b
  {
    if |w| > 0 {
      assert (w + b)[1..] == w[1..] + b;
      TrimStartOfRun(w[1..], b);
    } else {
      assert w + b == b;
    }
  }

  lemma {:induction false} FirstSpaceOfNoSpace(a: string)
    requires NoSpace(a)
    ensures FirstSpace(a) == |a|
  {
    if |a| > 0 {
      FirstSpaceOfNoSpace(a[1..]);
    }
  }

  function Concat(parts: seq<string>): string {
    if |parts| == 0 then [] else parts[0] + Concat(parts[1..])
  }

  /** `s` with all white space removed. */
  function RemoveSpaces(s: string): string {
    if |s| == 0 then [] else (if IsSpace(s[0]) then [] else [s[0]]) + RemoveSpaces(s[1..])
  }

  lemma {:induction false} RemoveSpacesAppend(a: string, b: string)
    ensures RemoveSpaces(a + b) == RemoveSpaces(a) + RemoveSpaces(b)
  {
    if |a| > 0 {
      assert (a + b)[1..] == a[1..] + b;
      RemoveSpacesAppend(a[1..], b);
    } else {
      assert a + b == b;
    }
  }

  lemma {:induction false} RemoveSpacesOfNoSpace(s: string)
    requires NoSpace(s)
    ensures RemoveSpaces(s) == s
  {
    if |s| > 0 {
      RemoveSpacesOfNoSpace(s[1..]);
    }
  }

  lemma {:induction false} RemoveSpacesOfAllSpace(s: string)
    requires AllSpace(s)
    ensures RemoveSpaces(s) == []
  {
    if |s| > 0 {
      RemoveSpacesOfAllSpace(s[1..]);
    }
  }

  /** Splitting on white space loses the white space and nothing else:
      the pieces, concatenated, are the non-space characters of `s`. */
  lemma {:induction false} TokensConcat(s: string)
    ensures Concat(Tokens(s)) == RemoveSpaces(s)
    decreases |s|
  {
    var i := FirstSpace(s);
    if i == |s| {
      TokensBase(s);
    } else {
      var rest := TrimStart(s[i..]);
      TokensConcat(rest);
      TokensStep(s, i, rest);
      var lead := Decompose(s, i, rest);
      RemoveSpacesStep(s[..i], lead, rest);
    }
  }

  lemma TokensBase(s: string)
    requires FirstSpace(s) == |s|
    ensures Concat(Tokens(s)) == RemoveSpaces(s)
  {
    assert s[..|s|] == s;
    RemoveSpacesOfNoSpace(s);
    assert Tokens(s) == [s];
    assert Concat([s]) == s + Concat([]);
  }

  lemma TokensStep(s: string, i: nat, rest: string)
    requires i == FirstSpace(s) < |s| && rest == TrimStart(s[i..])
    ensures Concat(Tokens(s)) == s[..i] + Concat(Tokens(rest))
  {
    var toks := Tokens(s);
    assert toks == [s[..i]] + Tokens(rest);
    assert toks[1..] == Tokens(rest);
  }

  lemma Decompose(s: string, i: nat, rest: string) returns (lead: string)
    requires i <= |s| && rest == TrimStart(s[i..])
    ensures s == s[..i] + (lead + rest) && AllSpace(lead)
  {
    var t := s[i..];
    var k := |t| - |rest|;
    lead := t[..k];
    SliceJoin(t, k);
    SliceJoin(s, i);
  }

  lemma SliceJoin(s: string, i: nat)
    requires i <= |s|
    ensures s == s[..i] + s[i..]
  {
  }

  lemma RemoveSpacesStep(head: string, lead: string, rest: string)
    requires NoSpace(head) && AllSpace(lead)
    ensures RemoveSpaces(head + (lead + rest)) == head + RemoveSpaces(rest)
  {
    var tail := lead + rest;
    RemoveSpacesAppend(lead, rest);
    RemoveSpacesOfAllSpace(lead);
    assert RemoveSpaces(tail) == RemoveSpaces(rest);
    RemoveSpacesAppend(head, tail);
    RemoveSpacesOfNoSpace(head);
  }

  /** JavaScript `s.split(sep)` for a one-character separator. */
  function Split(s: string, sep: char): (r: seq<string>)
    ensures |r| >= 1
    ensures forall k :: 0 <= k < |r| ==> sep !in r[k]
    ensures forall k, c :: 0 <= k < |r| && c in r[k] ==> c in s
  {
    if |s| == 0 then [""]
    else
      var rest := Split(s[1..], sep);
      assert forall d :: d in s[1..] ==> d in s;
      if s[0] == sep then
        assert forall k :: 1 <= k < |rest| + 1 ==> ([""] + rest)[k] == rest[k - 1];
        [""] + rest
      else
        [[s[0]] + rest[0]] + rest[1..]
  }

  /** JavaScript `parts.join(sep)` for a one-character separator. */
  function Join(parts: seq<string>, sep: char): string
    requires |parts| >= 1
  {
    if |parts| == 1 then parts[0] else parts[0] + [sep] + Join(parts[1..], sep)
  }

  /** Joining the pieces of a split gives back the original string. */
  lemma {:induction false} JoinSplit(s: string, sep: char)
    ensures Join(Split(s, sep), sep) == s
  {
    if |s| > 0 {
      var rest := Split(s[1..], sep);
      JoinSplit(s[1..], sep);
      if s[0] == sep {
        assert ([""] + rest)[1..] == rest;
      } else {
        var r := [[s[0]] + rest[0]] + rest[1..];
        if |rest| > 1 {
          assert r[1..] == rest[1..];
        }
      }
    }
  }

  lemma {:induction false} SplitNoSep(a: string, sep: char)
    requires sep !in a
    ensures Split(a, sep) == [a]
  {
    if |a| > 0 {
      SplitNoSep(a[1..], sep);
      assert [a[0]] + a[1..] == a;
    }
  }

  lemma {:induction false} SplitAtSep(a: string, b: string, sep: char)
    requires sep !in a
    ensures Split(a + [sep] + b, sep) == [a] + Split(b, sep)
  {
    if |a| == 0 {
      assert a + [sep] + b == [sep] + b;
      assert ([sep] + b)[1..] == b;
    } else {
      var s := a + [sep] + b;
      assert s[1..] == a[1..] + [sep] + b;
      SplitAtSep(a[1..], b, sep);
      assert [a[0]] + a[1..] == a;
    }
  }

  /** Splitting a join of separator-free pieces gives back the pieces. */
  lemma {:induction false} SplitJoin(parts: seq<string>, sep: char)
    requires |parts| >= 1
    requires forall k :: 0 <= k < |parts| ==> sep !in parts[k]
    ensures Split(Join(parts, sep), sep) == parts
  {
    if |parts| == 1 {
      SplitNoSep(parts[0], sep);
    } else {
      SplitJoin(parts[1..], sep);
      SplitAtSep(parts[0], Join(parts[1..], sep), sep);
      assert [parts[0]] + parts[1..] == parts;
    }
  }

  /** `s` with every occurrence of `c` deleted. */
  function RemoveAll(s: string, c: char): (r: string)
    ensures c !in r
    ensures forall d :: d in r ==> d in s
  {
    if |s| == 0 then [] else (if s[0] == c then [] else [s[0]]) + RemoveAll(s[1..], c)
  }

  /** ASCII `toLowerCase` of one character. */
  function LowerChar(c: char): char {
    if 'A' <= c <= 'Z' then (c as int + 32) as char else c
  }

  /** ASCII `toUpperCase` of one character. */
  function UpperChar(c: char): char {
    if 'a' <= c <= 'z' then (c as int - 32) as char else c
  }

  function Lower(s: string): (r: string)
    ensures |r| == |s| && forall i :: 0 <= i < |s| ==> r[i] == LowerChar(s[i])
  {
    seq(|s|, i requires 0 <= i < |s| => LowerChar(s[i]))
  }

  function Upper(s: string): (r: string)
    ensures |r| == |s| && forall i :: 0 <= i < |s| ==> r[i] == UpperChar(s[i])
  {
    seq(|s|, i requires 0 <= i < |s| => UpperChar(s[i]))
  }

  /** Lower-casing twice is lower-casing once. */
  lemma LowerIdempotent(s: string)
    ensures Lower(Lower(s)) == Lower(s)
  {
  }

  /** JavaScript `s.startsWith(p)`. */
  predicate StartsWith(s: string, p: string) {
    |p| <= |s| && s[..|p|] == p
  }

  /** JavaScript `s.includes(t)`. */
  predicate Contains(s: string, t: string) {
    StartsWith(s, t) || (|s| > 0 && Contains(s[1..], t))
  }

  /** A string containing `p + t` contains `t`. */
  lemma {:induction false} ContainsTail(s: string, p: string, t: string)
    requires Contains(s, p + t)
    ensures Contains(s, t)
  {
    if StartsWith(s, p + t) {
      if |p| > 0 {
        assert s[1..][..|p| - 1 + |t|] == (p + t)[1..] == p[1..] + t;
        ContainsTail(s[1..], p[1..], t);
      } else {
        assert p + t == t;
      }
    } else {
      ContainsTail(s[1..], p, t);
    }
  }

  /** Lower-casing forgets an earlier upper-casing. */
  lemma LowerOfUpper(s: string)
    ensures Lower(Upper(s)) == Lower(s)
  {
  }

  function DigitChar(d: nat): (c: char)
    requires d < 10
    ensures '0' <= c <= '9' && c as int - '0' as int == d
  {
    ('0' as int + d) as char
  }

  predicate AllDigits(s: string) {
    forall i :: 0 <= i < |s| ==> '0' <= s[i] <= '9'
  }

  /** The number a string of decimal digits denotes. */
  function DecimalValue(s: string): nat
    requires AllDigits(s)
  {
    if s == [] then 0
    else 10 * DecimalValue(s[..|s| - 1]) + (s[|s| - 1] as int - '0' as int)
  }

  /** The decimal numeral of `n`, as a template literal prints it: digits
      only, and no leading zero unless the number is 0. */
  function NatToString(n: nat): (r: string)
    ensures |r| >= 1 && AllDigits(r)
    ensures r[0] == '0' <==> n == 0
  {
    if n < 10 then [DigitChar(n)] else NatToString(n / 10) + [DigitChar(n % 10)]
  }

  /** Reading the numeral back gives the number. */
  lemma {:induction false} NatToStringValue(n: nat)
    ensures DecimalValue(NatToString(n)) == n
  {
    var r := NatToString(n);
    if n >= 10 {
      NatToStringValue(n / 10);
      assert r[..|r| - 1] == NatToString(n / 10);
    }
  }

  /** Different numbers print as different numerals. */
  lemma NatToStringInjective(m: nat, n: nat)
    requires m != n
    ensures NatToString(m) != NatToString(n)
  {
    NatToStringValue(m);
    NatToStringValue(n);
  }
}

=== FILE: touchstone.dfy ===
/** The Touchstone (S2P) column extractor: from the text of a two-port
    Touchstone v1 file to a table of (frequency in Hz, value) rows for one
    chosen S-parameter column (javascript/s2p_converter.js).

    JavaScript's `Number(token)` is a parameter `number`; a token is
    numeric when `number` gives a finite value. */
module Touchstone {
  import opened Wrappers
  import opened JsNumbers
  import opened Text

  /** `Number(...)` applied to a token. */
  type NumberOf = string -> JsNum

  // ---------------------------------------------------------------------
  // Frequency units
  // ---------------------------------------------------------------------

  /** The factor `toHz` multiplies by: the unit is matched after lower
      casing, an empty unit stands for MHz, and an unknown one is taken as
      MHz too. */
  function UnitScale(unit: string): (r: real)
    // the empty unit is the falsy case of `unit || 'MHz'`
    ensures r == 1_000_000_000.0 <==> Lower(unit) == "ghz"
    ensures r == 1.0 <==> Lower(unit) == "hz"
    ensures r == 1_000_000.0 <==> Lower(unit) != "ghz" && Lower(unit) != "hz"
  {
    if unit == [] then 1_000_000.0
    else
      var u := Lower(unit);
      if u == "ghz" then 1_000_000_000.0
      else if u == "mhz" then 1_000_000.0
      else if u == "hz" then 1.0
      else 1_000_000.0
  }

  /** The unit is matched case-insensitively. */
  lemma UnitScaleIgnoresCase(unit: string)
    ensures UnitScale(Upper(unit)) == UnitScale(unit)
    ensures UnitScale(Lower(unit)) == UnitScale(unit)
  {
    LowerOfUpper(unit);
    LowerIdempotent(unit);
  }

  /** `toHz`: NaN for a value that is not a finite number, otherwise the
      value scaled by the unit. */
  function ToHz(f: JsNum, unit: string): (r: JsNum)
    ensures r.Fin? <==> f.Fin?
    ensures f.Fin? ==> r.v == f.v * UnitScale(unit)
  {
    if !IsFinite(f) then NaN else Fin(f.v * UnitScale(unit))
  }

  // ---------------------------------------------------------------------
  // Lines
  // ---------------------------------------------------------------------

  /** `parseLines`: every carriage return removed, then split at line
      feeds. */
  function ParseLines(txt: string): (lines: seq<string>)
    ensures |lines| >= 1
    ensures forall k :: 0 <= k < |lines| ==> '\r' !in lines[k] && '\n' !in lines[k]
    ensures Join(lines, '\n') == RemoveAll(txt, '\r')
  {
    var s := RemoveAll(txt, '\r');
    JoinSplit(s, '\n');
    Split(s, '\n')
  }

  /** Splitting the lines back apart gives the same lines: `parseLines`
      loses nothing but the carriage returns. */
  lemma ParseLinesOfJoin(lines: seq<string>)
    requires |lines| >= 1
    requires forall k :: 0 <= k < |lines| ==> '\r' !in lines[k] && '\n' !in lines[k]
    ensures ParseLines(Join(lines, '\n')) == lines
  {
    JoinFree(lines, '\n', '\r');
    RemoveAllAbsent(Join(lines, '\n'), '\r');
    SplitJoin(lines, '\n');
  }

  lemma {:induction false} JoinFree(lines: seq<string>, sep: char, c: char)
    requires |lines| >= 1 && c != sep
    requires forall k :: 0 <= k < |lines| ==> c !in lines[k]
    ensures c !in Join(lines, sep)
  {
    if |lines| > 1 {
      JoinFree(lines[1..], sep, c);
    }
  }

  lemma {:induction false} RemoveAllAbsent(s: string, c: char)
    ensures c !in s ==> RemoveAll(s, c) == s
  {
    if |s| > 0 && c !in s {
      RemoveAllAbsent(s[1..], c);
      assert [s[0]] + s[1..] == s;
    }
  }

  /** `isCommentLine`: after trimming, the line starts with `!`, `//` or
      `;`. */
  predicate IsCommentLine(line: string) {
    var t := Trim(line);
    StartsWith(t, "!") || StartsWith(t, "//") || StartsWith(t, ";")
  }

  /** Trimming first does not change the verdict, so the callers that
      test an already trimmed line agree with the definition. */
  lemma CommentOfTrimmed(line: string)
    ensures IsCommentLine(Trim(line)) == IsCommentLine(line)
  {
    TrimIdempotent(line);
  }

  // ---------------------------------------------------------------------
  // Header
  // ---------------------------------------------------------------------

  /** The unit names `findHeaderUnit` returns. */
  datatype Unit = GHz | MHz | Hz

  function UnitName(u: Unit): string {
    match u
    case GHz => "GHz"
    case MHz => "MHz"
    case Hz => "Hz"
  }

  /** What one line says about the unit: a non-blank line starting with
      `#` names GHz, MHz or Hz by the first of "GHZ", "MHZ", "HZ" its
      upper-cased text contains. */
  function HeaderUnitOf(line: string): Option<Unit> {
    var l := Trim(line);
    if l == [] then None
    else if StartsWith(l, "#") then
      var s := Upper(l);
      if Contains(s, "GHZ") then Some(GHz)
      else if Contains(s, "MHZ") then Some(MHz)
      else if Contains(s, "HZ") then Some(Hz)
      else None
    else None
  }

  /** A line names a unit exactly when, trimmed, it starts with `#` and
      mentions "HZ" in any case; it names GHz exactly when it mentions
      "GHZ", and MHz when it mentions "MHZ" but not "GHZ". */
  lemma HeaderUnitOfSpec(line: string)
    ensures var l := Upper(Trim(line));
      && (HeaderUnitOf(line).Some? <==> StartsWith(Trim(line), "#") && Contains(l, "HZ"))
      && (HeaderUnitOf(line) == Some(GHz) <==> StartsWith(Trim(line), "#") && Contains(l, "GHZ"))
      && (HeaderUnitOf(line) == Some(MHz) <==>
            StartsWith(Trim(line), "#") && !Contains(l, "GHZ") && Contains(l, "MHZ"))
  {
    var s := Upper(Trim(line));
    assert "G" + "HZ" == "GHZ";
    assert "M" + "HZ" == "MHZ";
    if Contains(s, "GHZ") {
      ContainsTail(s, "G", "HZ");
    }
    if Contains(s, "MHZ") {
      ContainsTail(s, "M", "HZ");
    }
  }

  /** `findHeaderUnit`: the unit of the first line that names one, or
      none (`null`). */
  method FindHeaderUnit(lines: seq<string>) returns (r: Option<Unit>)
    ensures r.None? <==> forall k :: 0 <= k < |lines| ==> HeaderUnitOf(lines[k]).None?
    ensures r.Some? ==> exists i :: 0 <= i < |lines| && HeaderUnitOf(lines[i]) == r
                                   && forall k :: 0 <= k < i ==> HeaderUnitOf(lines[k]).None?
  {
    r := FirstSome(HeaderFn(), lines);
  }

  function HeaderFn(): string -> Option<Unit> {
    line => HeaderUnitOf(line)
  }

  /** The scan of `findHeaderUnit`: the first result `f` gives, or none. */
  method FirstSome<T>(f: string -> Option<T>, lines: seq<string>) returns (r: Option<T>)
    ensures r.None? <==> forall k :: 0 <= k < |lines| ==> f(lines[k]).None?
    ensures r.Some? ==> exists i :: 0 <= i < |lines| && f(lines[i]) == r
                                   && forall k :: 0 <= k < i ==> f(lines[k]).None?
  {
    var i := 0;
    while i < |lines|
      invariant 0 <= i <= |lines|
      invariant forall k :: 0 <= k < i ==> f(lines[k]).None?
    {
      var u := f(lines[i]);
      if u.Some? {
        return u;
      }
      i := i + 1;
    }
    return None;
  }

  // ---------------------------------------------------------------------
  // Data lines
  // ---------------------------------------------------------------------

  /** `t.replace(',', '.')`: the first comma becomes a point and every
      other character, later commas included, is kept. */
  function DecimalPoint(t: string): (r: string)
    ensures |r| == |t|
    ensures ',' !in t ==> r == t
    ensures forall k :: 0 <= k < |t| && (t[k] != ',' || ',' in t[..k]) ==> r[k] == t[k]
    ensures forall k :: 0 <= k < |t| && t[k] == ',' && ',' !in t[..k] ==> r[k] == '.'
  {
    if t == [] then []
    else if t[0] == ',' then
      var r := ['.'] + t[1..];
      DecimalPointHead(t, r);
      r
    else
      var rest := DecimalPoint(t[1..]);
      var r := [t[0]] + rest;
      DecimalPointTail(t, rest, r);
      r
  }

  lemma DecimalPointHead(t: string, r: string)
    requires t != [] && t[0] == ',' && r == ['.'] + t[1..]
    ensures |r| == |t| && r[0] == '.'
    ensures forall k :: 1 <= k < |t| ==> r[k] == t[k] && ',' in t[..k]
  {
    forall k | 1 <= k < |t|
      ensures r[k] == t[k] && ',' in t[..k]
    {
      assert t[..k][0] == ',';
    }
  }

  lemma DecimalPointTail(t: string, rest: string, r: string)
    requires t != [] && t[0] != ',' && r == [t[0]] + rest
    requires |rest| == |t| - 1
    requires ',' !in t[1..] ==> rest == t[1..]
    requires forall k :: 0 <= k < |t| - 1 && (t[1..][k] != ',' || ',' in t[1..][..k]) ==> rest[k] == t[1..][k]
    requires forall k :: 0 <= k < |t| - 1 && t[1..][k] == ',' && ',' !in t[1..][..k] ==> rest[k] == '.'
    ensures |r| == |t|
    ensures ',' !in t ==> r == t
    ensures forall k :: 0 <= k < |t| && (t[k] != ',' || ',' in t[..k]) ==> r[k] == t[k]
    ensures forall k :: 0 <= k < |t| && t[k] == ',' && ',' !in t[..k] ==> r[k] == '.'
  {
    assert t == [t[0]] + t[1..];
    forall k | 1 <= k < |t|
      ensures t[k] == t[1..][k - 1] && r[k] == rest[k - 1]
      ensures (',' in t[..k]) <==> (',' in t[1..][..k - 1])
    {
      assert t[..k] == [t[0]] + t[1..][..k - 1];
    }
  }

  /** The tokens of a line, with the first comma of each read as a point. */
  function Fields(line: string): (r: seq<string>)
    ensures |r| == |Tokens(Trim(line))| >= 1
    ensures forall k :: 0 <= k < |r| ==> r[k] == DecimalPoint(Tokens(Trim(line))[k])
  {
    PointAll(Tokens(Trim(line)))
  }

  /** Each token with its first comma read as a point. */
  function PointAll(toks: seq<string>): (r: seq<string>)
    ensures |r| == |toks|
    ensures forall k :: 0 <= k < |r| ==> r[k] == DecimalPoint(toks[k])
  {
    seq(|toks|, k requires 0 <= k < |toks| => DecimalPoint(toks[k]))
  }

  /** How many of the tokens are finite numbers. */
  function NumericCount(number: NumberOf, toks: seq<string>): (r: nat)
    ensures r <= |toks|
  {
    if toks == [] then 0
    else NumericCount(number, toks[..|toks| - 1]) + (if number(toks[|toks| - 1]).Fin? then 1 else 0)
  }

  /** The character class `[\d\-\.+]`: an ASCII digit, a sign or a
      point. */
  predicate IsNumericStart(c: char): (b: bool)
    ensures b <==> c in "0123456789-.+"
  {
    ('0' <= c <= '9') || c == '-' || c == '.' || c == '+'
  }

  /** The `reduce` counts exactly the tokens `Number` reads as finite. */
  lemma NumericCountCounts(number: NumberOf, toks: seq<string>)
    ensures NumericCount(number, toks) == |set k | 0 <= k < |toks| && number(toks[k]).Fin?|
  {
    NumericCountPrefix(number, toks, |toks|);
    assert toks[..|toks|] == toks;
  }

  /** All tokens count exactly when every token is a finite number, and
      none when no token is. */
  lemma {:induction false} NumericCountAllOrNone(number: NumberOf, toks: seq<string>)
    ensures NumericCount(number, toks) == |toks| <==> forall k :: 0 <= k < |toks| ==> number(toks[k]).Fin?
    ensures NumericCount(number, toks) == 0 <==> forall k :: 0 <= k < |toks| ==> !number(toks[k]).Fin?
  {
    var n := |toks|;
    if n > 0 {
      var init := toks[..n - 1];
      NumericCountAllOrNone(number, init);
      assert forall k :: 0 <= k < n - 1 ==> init[k] == toks[k];
    }
  }

  lemma {:induction false} NumericCountPrefix(number: NumberOf, toks: seq<string>, n: nat)
    requires n <= |toks|
    ensures NumericCount(number, toks[..n]) == |set k | 0 <= k < n && number(toks[k]).Fin?|
  {
    if n > 0 {
      NumericCountPrefix(number, toks, n - 1);
      assert toks[..n][..n - 1] == toks[..n - 1];
      var a := set k | 0 <= k < n - 1 && number(toks[k]).Fin?;
      var b := set k | 0 <= k < n && number(toks[k]).Fin?;
      assert a == b - {n - 1};
      CardRemoveOne(a, b, n - 1);
    }
  }

  lemma CardRemoveOne(a: set<int>, b: set<int>, m: int)
    requires a == b - {m}
    ensures |b| == |a| + (if m in b then 1 else 0)
  {
    if m in b {
      assert b == a + {m};
    }
  }

  /** A line `findFirstDataLineIndex` accepts: non-blank, not a comment,
      first character a digit, sign or point, and at least two tokens
      that are finite numbers. */
  predicate IsDataLine(number: NumberOf, line: string) {
    var l := Trim(line);
    && l != []
    && !IsCommentLine(l)
    && IsNumericStart(l[0])
    && NumericCount(number, Fields(line)) >= 2
  }

  /** A comment line is never a data line. */
  lemma CommentIsNotData(number: NumberOf, line: string)
    requires IsCommentLine(line)
    ensures !IsDataLine(number, line)
  {
    CommentOfTrimmed(line);
  }

  /** A data line has at least two columns. */
  lemma DataLineWidth(number: NumberOf, line: string)
    requires IsDataLine(number, line)
    ensures |Fields(line)| >= 2
  {
  }

  /** `findFirstDataLineIndex`: the index of the first data line, or −1
      when there is none. */
  method FindFirstDataLineIndex(number: NumberOf, lines: seq<string>) returns (i: int)
    ensures -1 <= i < |lines|
    ensures i == -1 <==> forall k :: 0 <= k < |lines| ==> !IsDataLine(number, lines[k])
    ensures i >= 0 ==> IsDataLine(number, lines[i])
    ensures i >= 0 ==> forall k :: 0 <= k < i ==> !IsDataLine(number, lines[k])
    ensures i == FirstOf(DataTest(number), lines)
  {
    i := FirstIndex(DataTest(number), lines);
  }

  /** The index of the first line `p` accepts, or −1. */
  function FirstOf(p: string -> bool, lines: seq<string>): (i: int)
    ensures -1 <= i < |lines|
    ensures i == -1 <==> forall k :: 0 <= k < |lines| ==> !p(lines[k])
    ensures i >= 0 ==> p(lines[i]) && forall k :: 0 <= k < i ==> !p(lines[k])
  {
    if lines == [] then -1
    else if p(lines[0]) then 0
    else
      var j := FirstOf(p, lines[1..]);
      assert forall k :: 1 <= k < |lines| ==> lines[1..][k - 1] == lines[k];
      if j < 0 then -1 else j + 1
  }

  /** `IsDataLine` for a fixed number reader. */
  function DataTest(number: NumberOf): string -> bool {
    line => IsDataLine(number, line)
  }

  /** The scan of `findFirstDataLineIndex`: the first line `p` accepts,
      or −1. */
  method FirstIndex(p: string -> bool, lines: seq<string>) returns (i: int)
    ensures -1 <= i < |lines|
    ensures i == -1 <==> forall k :: 0 <= k < |lines| ==> !p(lines[k])
    ensures i == FirstOf(p, lines)
  {
    i := 0;
    while i < |lines|
      invariant 0 <= i <= |lines|
      invariant forall k :: 0 <= k < i ==> !p(lines[k])
    {
      if p(lines[i]) {
        return i;
      }
      i := i + 1;
    }
    return -1;
  }

  // ---------------------------------------------------------------------
  // Column mapping
  // ---------------------------------------------------------------------

  /** Column indices by name: the frequency and the four S-parameters. */
  datatype Mapping = Mapping(freq: nat, s11: nat, s21: nat, s12: nat, s22: nat)

  /** `buildMapping`: which column holds each parameter's dB value, from
      the number of columns of the first data line. */
  function BuildMapping(n: int): (m: Mapping)
    ensures m.freq == 0
    ensures n >= 9 ==> m == Mapping(0, 1, 3, 5, 7)
    ensures (n == 8 || n == 5) ==> m == Mapping(0, 1, 2, 3, 4)
    ensures n < 9 && n != 8 && n != 5 ==> m == Mapping(0, 1, 1, 1, 1)
  {
    if n >= 9 then Mapping(0, 1, 3, 5, 7)
    else if n == 8 then Mapping(0, 1, 2, 3, 4)
    else if n == 5 then Mapping(0, 1, 2, 3, 4)
    else if n == 3 then Mapping(0, 1, 1, 1, 1)
    else Mapping(0, 1, 1, 1, 1)
  }

  /** The five keys of a mapping. */
  predicate IsParamKey(param: string) {
    param == "freq" || param == "S11" || param == "S21" || param == "S12" || param == "S22"
  }

  /** `chosenParam in mapping` and `mapping[chosenParam]`. */
  function Lookup(m: Mapping, param: string): (r: Option<nat>)
    ensures r.Some? <==> IsParamKey(param)
    ensures param == "freq" ==> r == Some(m.freq)
    ensures param == "S11" ==> r == Some(m.s11)
    ensures param == "S21" ==> r == Some(m.s21)
    ensures param == "S12" ==> r == Some(m.s12)
    ensures param == "S22" ==> r == Some(m.s22)
  {
    if param == "freq" then Some(m.freq)
    else if param == "S11" then Some(m.s11)
    else if param == "S21" then Some(m.s21)
    else if param == "S12" then Some(m.s12)
    else if param == "S22" then Some(m.s22)
    else None
  }

  /** Every column a mapping names is below the column count it was built
      for, whenever that count is at least two: 7 needs the nine columns
      that select that mapping, 4 the five or eight, 1 the two. */
  lemma MappingInRange(n: int, param: string)
    requires n >= 2
    ensures Lookup(BuildMapping(n), param).Some? ==> Lookup(BuildMapping(n), param).value < n
  {
  }

  // ---------------------------------------------------------------------
  // Rows
  // ---------------------------------------------------------------------

  /** One output row before formatting: frequency in Hz and the value. */
  datatype Row = Row(hz: real, value: real)

  /** The row a line contributes, if any: it must be non-blank, not a
      comment, have more than `col` tokens, and have a numeric frequency
      (first token) and value (token `col`). */
  function RowOf(number: NumberOf, unit: string, col: nat, line: string): (r: Option<Row>)
    ensures r.Some? <==>
      && Trim(line) != [] && !IsCommentLine(line) && |Fields(line)| > col
      && number(Fields(line)[0]).Fin? && number(Fields(line)[col]).Fin?
    ensures r.Some? ==>
      r.value == Row(number(Fields(line)[0]).v * UnitScale(unit), number(Fields(line)[col]).v)
  {
    var raw := Trim(line);
    if raw == [] then None
    else if IsCommentLine(raw) then (CommentOfTrimmed(line); None)
    else
      CommentOfTrimmed(line);
      var toks := Fields(line);
      if |toks| <= col then None
      else
        var freqNum := number(toks[0]);
        var valNum := number(toks[col]);
        if !IsFinite(freqNum) || !IsFinite(valNum) then None
        else
          var hz := ToHz(freqNum, unit);
          if !IsFinite(hz) then None
          else Some(Row(hz.v, valNum.v))
  }

  /** `RowOf` for a fixed number reader, unit and column. */
  function RowFn(number: NumberOf, unit: string, col: nat): string -> Option<Row> {
    line => RowOf(number, unit, col, line)
  }

  /** The results `f` gives for a run of lines, skipping the lines it
      rejects, in order. */
  function Collect<T>(f: string -> Option<T>, lines: seq<string>): seq<T> {
    if lines == [] then []
    else
      Collect(f, lines[..|lines| - 1])
        + (match f(lines[|lines| - 1])
           case Some(r) => [r]
           case None => [])
  }

  /** The indices of the lines `f` accepts, in order. */
  function Picked<T>(f: string -> Option<T>, lines: seq<string>): (r: seq<nat>)
    ensures forall j :: 0 <= j < |r| ==> r[j] < |lines|
  {
    if lines == [] then []
    else Picked(f, lines[..|lines| - 1]) + (if f(lines[|lines| - 1]).Some? then [|lines| - 1] else [])
  }

  /** The results are exactly those of the picked lines, the picked lines
      are exactly those `f` accepts, and they appear in input order. */
  lemma CollectFaithful<T>(f: string -> Option<T>, lines: seq<string>)
    ensures var rows := Collect(f, lines);
      var sel := Picked(f, lines);
      && |rows| == |sel|
      && (forall j :: 0 <= j < |sel| ==> f(lines[sel[j]]) == Some(rows[j]))
      && (forall j, j' :: 0 <= j < j' < |sel| ==> sel[j] < sel[j'])
      && (forall k :: 0 <= k < |lines| ==> (f(lines[k]).Some? <==> k in sel))
  {
    CollectPicked(f, lines);
    PickedIncreasing(f, lines);
    PickedComplete(f, lines);
  }

  lemma {:induction false} CollectPicked<T>(f: string -> Option<T>, lines: seq<string>)
    ensures |Collect(f, lines)| == |Picked(f, lines)|
    ensures forall j :: 0 <= j < |Picked(f, lines)| ==>
      f(lines[Picked(f, lines)[j]]) == Some(Collect(f, lines)[j])
  {
    if lines != [] {
      var p := lines[..|lines| - 1];
      var x := lines[|lines| - 1];
      CollectPicked(f, p);
      var rp, sp := Collect(f, p), Picked(f, p);
      forall j | 0 <= j < |sp|
        ensures lines[sp[j]] == p[sp[j]]
      {
      }
      if f(x).Some? {
        assert Collect(f, lines) == rp + [f(x).value];
        assert Picked(f, lines) == sp + [|lines| - 1];
      } else {
        assert Collect(f, lines) == rp;
        assert Picked(f, lines) == sp;
      }
    }
  }

  lemma {:induction false} PickedIncreasing<T>(f: string -> Option<T>, lines: seq<string>)
    ensures forall j, j' :: 0 <= j < j' < |Picked(f, lines)| ==> Picked(f, lines)[j] < Picked(f, lines)[j']
  {
    if lines != [] {
      PickedIncreasing(f, lines[..|lines| - 1]);
    }
  }

  lemma {:induction false} PickedComplete<T>(f: string -> Option<T>, lines: seq<string>)
    ensures forall k :: 0 <= k < |lines| ==> (f(lines[k]).Some? <==> k in Picked(f, lines))
  {
    if lines != [] {
      var p := lines[..|lines| - 1];
      PickedComplete(f, p);
      assert forall k :: 0 <= k < |p| ==> lines[k] == p[k];
    }
  }

  /** No result exactly when `f` rejects every line. */
  lemma CollectEmpty<T>(f: string -> Option<T>, lines: seq<string>)
    ensures Collect(f, lines) == [] <==> forall k :: 0 <= k < |lines| ==> f(lines[k]).None?
  {
    CollectFaithful(f, lines);
  }

  /** The rows of a run of lines, in order. */
  function ExtractRows(number: NumberOf, unit: string, col: nat, lines: seq<string>): seq<Row> {
    Collect(RowFn(number, unit, col), lines)
  }

  // ---------------------------------------------------------------------
  // The conversion
  // ---------------------------------------------------------------------

  /** The errors `buildOutputText` throws. */
  datatype ConvertError =
    | NoDataLine
    | ParamUnavailable
    | ColumnMissing(columns: nat)
    | NoValidRows

  /** The output before number formatting: the header line, then the
      rows. */
  datatype Table = Table(header: string, rows: seq<Row>)

  /** `buildOutputText`. The column-range error is never raised: the
      first data line has at least two columns, and every column the
      mapping for that many columns names is below that count. */
  method BuildOutputText(number: NumberOf, lines: seq<string>, param: string, unit: string,
                         freqLabel: string, headerLabel: string)
    returns (r: Result<Table, ConvertError>)
    ensures Builds(number, lines, param, unit, freqLabel + " " + headerLabel, r)
    ensures !r.Failure? || !r.error.ColumnMissing?
    ensures r.Success? ==> r.value.header == freqLabel + " " + headerLabel
    ensures IsParamKey(param) ==> r != Failure(ParamUnavailable)
  {
    var idx := FindFirstDataLineIndex(number, lines);
    if idx < 0 {
      return Failure(NoDataLine);
    }
    var tokensLen: nat := |Fields(lines[idx])|;
    var mapping := BuildMapping(tokensLen);
    var col := Lookup(mapping, param);
    if col.None? {
      return Failure(ParamUnavailable);
    }
    var colIndex := col.value;
    DataLineWidth(number, lines[idx]);
    MappingInRange(tokensLen, param);
    if colIndex >= tokensLen {
      if tokensLen >= 9 && colIndex >= tokensLen {
        return Failure(ColumnMissing(tokensLen));
      }
    }
    var rows := CollectFrom(RowFn(number, unit, colIndex), lines, idx);
    if rows == [] {
      return Failure(NoValidRows);
    }
    return Success(Table(freqLabel + " " + headerLabel, rows));
  }

  /** What `buildOutputText` yields: the no-data-line error exactly when
      no line is a data line, otherwise what `BuildsFrom` says for the
      first one. */
  predicate Builds(number: NumberOf, lines: seq<string>, param: string, unit: string,
                   header: string, r: Result<Table, ConvertError>)
  {
    var idx := FirstOf(DataTest(number), lines);
    && (r == Failure(NoDataLine) <==> idx < 0)
    && (idx >= 0 ==> BuildsFrom(number, lines, idx, param, unit, header, r))
  }

  /** What `buildOutputText` yields once the first data line `idx` is
      known: the chosen parameter must be a mapping key; its column
      exists on that line; and the table is the header line followed by
      the rows from `idx` on, or an error when there are none. */
  predicate BuildsFrom(number: NumberOf, lines: seq<string>, idx: nat, param: string, unit: string,
                       header: string, r: Result<Table, ConvertError>)
    requires idx < |lines|
  {
    var n := |Fields(lines[idx])|;
    match Lookup(BuildMapping(n), param)
    case None => r == Failure(ParamUnavailable)
    case Some(col) =>
      && col < n
      && var rows := ExtractRows(number, unit, col, lines[idx..]);
      && (rows == [] ==> r == Failure(NoValidRows))
      && (rows != [] ==> r == Success(Table(header, rows)))
  }

  /** The row loop of `buildOutputText`: the results of `f` for the lines
      from `idx` on. */
  method CollectFrom<T>(f: string -> Option<T>, lines: seq<string>, idx: nat) returns (rows: seq<T>)
    requires idx <= |lines|
    ensures rows == Collect(f, lines[idx..])
  {
    rows := [];
    var i := idx;
    while i < |lines|
      invariant idx <= i <= |lines|
      invariant rows == Collect(f, lines[idx..i])
    {
      assert lines[idx..i + 1][..i - idx] == lines[idx..i];
      var row := f(lines[i]);
      if row.Some? {
        rows := rows + [row.value];
      }
      i := i + 1;
    }
    assert lines[idx..i] == lines[idx..];
  }

  /** A data line whose first column and chosen column both hold finite
      numbers guarantees at least one row. */
  lemma FirstDataLineGivesRow(number: NumberOf, unit: string, col: nat, lines: seq<string>, idx: nat)
    requires idx < |lines| && IsDataLine(number, lines[idx]) && col < |Fields(lines[idx])|
    requires number(Fields(lines[idx])[0]).Fin? && number(Fields(lines[idx])[col]).Fin?
    ensures ExtractRows(number, unit, col, lines[idx..]) != []
  {
    DataLineRow(number, unit, col, lines[idx]);
    assert lines[idx..][0] == lines[idx];
    CollectEmpty(RowFn(number, unit, col), lines[idx..]);
  }

  lemma DataLineRow(number: NumberOf, unit: string, col: nat, line: string)
    requires IsDataLine(number, line) && col < |Fields(line)|
    requires number(Fields(line)[0]).Fin? && number(Fields(line)[col]).Fin?
    ensures RowFn(number, unit, col)(line).Some?
  {
    CommentOfTrimmed(line);
  }

  // ---------------------------------------------------------------------
  // The Convert button
  // ---------------------------------------------------------------------

  /** `a || b` on strings: the empty string is falsy. */
  function OrDefault(a: string, b: string): (r: string)
    ensures r == [] ==> a == [] && b == []
  {
    if a != [] then a else b
  }

  /** What the Convert button produces: a missing input, a conversion
      error, or the table; plus whether the handler sets the unit notice
      (the unit in the file's header differs from the unit the user chose;
      the user's choice is always used). Whether that notice is ever seen
      is decided by the status line below. */
  datatype Outcome = EmptyInput | Converted(result: Result<Table, ConvertError>, unitNotice: bool)

  /** The first line naming a unit names another one than `unit`, case
      aside. */
  predicate NoticeDue(lines: seq<string>, unit: string) {
    exists i :: 0 <= i < |lines| && HeaderUnitOf(lines[i]).Some?
                && (forall k :: 0 <= k < i ==> HeaderUnitOf(lines[k]).None?)
                && Lower(UnitName(HeaderUnitOf(lines[i]).value)) != Lower(unit)
  }

  /** The unit notice of the click handler: the detected header unit
      differs from the chosen one. */
  method UnitNotice(lines: seq<string>, unit: string) returns (notice: bool)
    ensures notice <==> NoticeDue(lines, unit)
  {
    var detected := FindHeaderUnit(lines);
    notice := detected.Some? && Lower(UnitName(detected.value)) != Lower(unit);
    if detected.Some? {
      var i :| 0 <= i < |lines| && HeaderUnitOf(lines[i]) == detected
               && forall k :: 0 <= k < i ==> HeaderUnitOf(lines[k]).None?;
      NoticeDueAt(lines, unit, i);
    }
  }

  /** Only the first line naming a unit decides the notice. */
  lemma NoticeDueAt(lines: seq<string>, unit: string, i: nat)
    requires i < |lines| && HeaderUnitOf(lines[i]).Some?
    requires forall k :: 0 <= k < i ==> HeaderUnitOf(lines[k]).None?
    ensures NoticeDue(lines, unit) <==> Lower(UnitName(HeaderUnitOf(lines[i]).value)) != Lower(unit)
  {
    if NoticeDue(lines, unit) {
      var j :| 0 <= j < |lines| && HeaderUnitOf(lines[j]).Some?
               && (forall k :: 0 <= k < j ==> HeaderUnitOf(lines[k]).None?)
               && Lower(UnitName(HeaderUnitOf(lines[j]).value)) != Lower(unit);
      assert !(j < i) && !(i < j);
    }
  }

  /** The click handler: trimmed input, default unit MHz, default
      parameter S21, default labels. */
  method Convert(number: NumberOf, input: string, unitChoice: string, paramChoice: string,
                 freqLabelIn: string, headerIn: string)
    returns (o: Outcome)
    ensures o.EmptyInput? <==> AllSpace(input)
    ensures o.Converted? ==> o.result.Success? ==>
      o.result.value.header == OrDefault(freqLabelIn, "freq(Hz)") + " "
        + OrDefault(headerIn, OrDefault(paramChoice, "S21") + "(dB)")
    ensures o.Converted? && paramChoice == [] ==> !(o.result == Failure(ParamUnavailable))
    // the table is the one buildOutputText makes from the trimmed input's lines
    ensures o.Converted? ==>
      var param := OrDefault(paramChoice, "S21");
      Builds(number, ParseLines(Trim(input)), param, OrDefault(unitChoice, "MHz"),
             OrDefault(freqLabelIn, "freq(Hz)") + " " + OrDefault(headerIn, param + "(dB)"), o.result)
    ensures o.Converted? ==>
      (o.unitNotice <==> NoticeDue(ParseLines(Trim(input)), OrDefault(unitChoice, "MHz")))
  {
    var txt := Trim(input);
    if txt == [] {
      return EmptyInput;
    }
    var lines := ParseLines(txt);
    var chosenUnit := OrDefault(unitChoice, "MHz");
    var notice := UnitNotice(lines, chosenUnit);
    var chosenParam := OrDefault(paramChoice, "S21");
    var result := BuildOutputText(number, lines, chosenParam, chosenUnit,
                                  OrDefault(freqLabelIn, "freq(Hz)"),
                                  OrDefault(headerIn, chosenParam + "(dB)"));
    return Converted(result, notice);
  }

  // ---------------------------------------------------------------------
  // The status line
  // ---------------------------------------------------------------------

  /** A text the click handler writes into the status line. */
  datatype Status =
    | Cleared
    | PasteFirst
    | UnitRemark
    | ConversionOk
    | ConversionFailed(error: ConvertError)

  /** The status a conversion result ends with: "Conversion OK" or the
      error message. */
  function ResultStatus(result: Result<Table, ConvertError>): (st: Status)
    ensures st == ConversionOk <==> result.Success?
    ensures result.Failure? ==> st == ConversionFailed(result.error)
  {
    if result.Success? then ConversionOk else ConversionFailed(result.error)
  }

  /** The `setStatus` calls of one click, in order: the clearing call,
      then the refusal of an empty input, or the unit notice when it is
      due followed by the conversion's own status. */
  function StatusWrites(o: Outcome): (w: seq<Status>)
    ensures |w| >= 2 && w[0] == Cleared
    ensures UnitRemark in w <==> o.Converted? && o.unitNotice
    ensures o.Converted? ==> w[|w| - 1] == ResultStatus(o.result)
    ensures o.EmptyInput? ==> w == [Cleared, PasteFirst]
  {
    match o
    case EmptyInput => [Cleared, PasteFirst]
    case Converted(result, notice) =>
      [Cleared] + (if notice then [UnitRemark] else []) + [ResultStatus(result)]
  }

  /** The status line once the click handler returns, as the program
      writes it: every `setStatus` replaces the text, so the last call
      wins and the unit notice, always followed by the conversion's
      status, is never what the line shows. */
  function ShownStatusAsWritten(o: Outcome): (st: Status)
    ensures st != UnitRemark
    ensures o.EmptyInput? ==> st == PasteFirst
    ensures o.Converted? ==> st == ResultStatus(o.result)
  {
    var w := StatusWrites(o);
    w[|w| - 1]
  }

  /** Whenever the handler sets the unit notice, it is overwritten before
      the handler returns. */
  lemma UnitNoticeOverwritten(o: Outcome)
    requires o.Converted? && o.unitNotice
    ensures UnitRemark in StatusWrites(o)
    ensures ShownStatusAsWritten(o) != UnitRemark
  {
  }

  /** The status line as evidently intended: a due unit notice stays
      visible after a successful conversion, instead of being replaced by
      "Conversion OK"; an error still replaces it. */
  function ShownStatus(o: Outcome): (st: Status)
    ensures st == UnitRemark <==> o.Converted? && o.unitNotice && o.result.Success?
    ensures o.EmptyInput? ==> st == PasteFirst
    ensures o.Converted? && o.result.Failure? ==> st == ConversionFailed(o.result.error)
    ensures o.Converted? && o.result.Success? && !o.unitNotice ==> st == ConversionOk
  {
    match o
    case EmptyInput => PasteFirst
    case Converted(result, notice) =>
      if notice && result.Success? then UnitRemark else ResultStatus(result)
  }

  /** The intended status line differs from the written one exactly when
      a due notice follows a successful conversion. */
  lemma ShownStatusDiffers(o: Outcome)
    ensures ShownStatus(o) != ShownStatusAsWritten(o)
            <==> o.Converted? && o.unitNotice && o.result.Success?
  {
  }
}

=== FILE: units.dfy ===
/** Conversions between decibels and linear power ratios
    (`dbToLin` and `linToDb`). `Math.pow(10, ·)` and `Math.log10` stay
    abstract: they are passed in as functions, and only the branch
    structure around them is modelled. */
module Units {
  import opened JsNumbers

  /** The finite stand-in for "infinitely large" used by `dbToLin`. */
  const Sentinel: real := 1e300

  /** Decibel values above this are mapped to the sentinel. */
  const MaxDb: real := 500.0

  /** `x => Math.pow(10, x)`, assumed strictly positive everywhere. */
  type Pow10 = f: real -> real | forall x :: f(x) > 0.0 witness (x: real) => 1.0

  /** `x => Math.log10(x)`, left completely abstract. */
  type Log10 = real -> real

  /** `dbToLin(db)`: the sentinel for a non-finite input or one above
      500 dB, otherwise 10^(db/10). */
  function DbToLin(pow10: Pow10, db: JsNum): (r: real)
    ensures r > 0.0
    ensures !IsFinite(db) || db.v > MaxDb ==> r == Sentinel
    ensures IsFinite(db) && db.v <= MaxDb ==> r == pow10(db.v / 10.0)
  {
    if !IsFinite(db) then Sentinel
    else if db.v > MaxDb then Sentinel
    else pow10(db.v / 10.0)
  }

  /** `linToDb(lin)`: minus infinity for a ratio that is not positive,
      otherwise 10·log10(lin). */
  function LinToDb(log10: Log10, lin: real): (r: JsNum)
    ensures r.NegInf? <==> lin <= 0.0
    ensures !r.PosInf? && !r.NaN?
    ensures lin > 0.0 ==> r == Fin(10.0 * log10(lin))
  {
    if lin <= 0.0 then NegInf else Fin(10.0 * log10(lin))
  }

  /** Converting a decibel value to linear and back never gives minus
      infinity: even the sentinel is a finite, positive ratio. */
  lemma DbToLinToDbFinite(pow10: Pow10, log10: Log10, db: JsNum)
    ensures IsFinite(LinToDb(log10, DbToLin(pow10, db)))
  {
  }
}

=== FILE: wrappers.dfy ===
/** Optional values and success/failure results, used wherever the original
    program returns `null`, `NaN` as "no answer", or throws an `Error`. */
module Wrappers {

  datatype Option<+T> = None | Some(value: T)

  datatype Result<+R, +E> = Success(value: R) | Failure(error: E)
}
